=== FILE: README.md ===
# SpatialSimulator core, modelled in Dafny

SpatialSimulator generates spatial scenarios. It has two parts:

- a small geocomputing library: coordinate transformation, distances, polygon area, overlay of feature layers, clustering, Moran's I spatial autocorrelation and hotspot detection;
- a scenario pipeline: knowledge graph, place dynamics, agents, negotiation, scenario variants, trade-off evaluation and an XR visualisation payload.

This project models the core of both parts and proves what they promise.

- `common.dfy` (module `Common`) holds the shared values:
  - a `(lat, lon)` point;
  - the distance as a function `Metric`;
  - the dynamically typed `Value` held in the Python dicts (feature records, input layers);
  - `Option`, `Result` and a left-to-right `Sum`.
- `spatial_ops.dfy` (module `SpatialOps`) models `geocomputing/spatial_ops.py`:
  - `transform_coordinates` and `calculate_distance`, as pure functions with their error results;
  - the shoelace loop of `calculate_area`, as a method proved against `PolygonArea`;
  - `_features_intersect`, as a pure predicate;
  - the nested loops of `spatial_overlay`, as a method proved against the list functions `Intersection`, `Difference` and `Overlay`.
- `analysis.dfy` (module `Analysis`) models `geocomputing/analysis.py`:
  - `_get_neighbors`, `_expand_cluster` and `detect_clusters`, as methods over a `visited` array, a growing worklist and the cluster lists;
  - `spatial_autocorrelation` (Moran's I) and `hotspot_analysis`, as methods whose loops are proved against recursive sum functions.
- `spatial_simulator.dfy` (module `SpatialSimulator`) models `spatial_simulator.py`. Every stage there builds a fixed record shape from its arguments. The records become datatypes, and a dict keyed by mode or by overlay becomes a map.

Python floats are modelled as mathematical reals. The haversine distance, `math.sqrt` and the `log(tan(...))` ordinate of Web Mercator are parameters of the functions that use them.

The pipeline stages are placeholders in the code. The agent types are `efficiency, equity, biodiversity, memory`. The modes are `base, disruptive, utopian, hybrid`.

## Model

| member | source | states |
|---|---|---|
| SpatialOps.TransformCoordinates | geocomputing/spatial_ops.py:16-49 | for EPSG:4326 to EPSG:3857 it fails with the latitude exactly when \|lat\| > 85.06, and otherwise scales lon and the Mercator ordinate by 20037508.34/180; any other pair of reference systems returns (lon, lat) |
| SpatialOps.MercatorXWithinWorld | geocomputing/spatial_ops.py:43 | a longitude in [-180, 180] with a valid latitude maps to an x within ±20037508.34 |
| SpatialOps.SquaredPlanarDistance | geocomputing/spatial_ops.py:93 | the squared planar distance under the Euclidean square root is never negative |
| SpatialOps.CalculateDistance | geocomputing/spatial_ops.py:52-95 | fails exactly for a method other than "haversine" or "euclidean"; "haversine" gives the haversine distance and "euclidean" gives sqrt of the squared planar distance |
| SpatialOps.PolygonArea | geocomputing/spatial_ops.py:112-129 | the area is never negative and is 0 below three vertices |
| SpatialOps.CalculateArea | geocomputing/spatial_ops.py:98-129 | the accumulating loop returns PolygonArea: \|Σ x_i·y_(i+1 mod n) − x_(i+1 mod n)·y_i\| / 2 · 111², and 0 below three vertices |
| SpatialOps.EdgeStep | geocomputing/spatial_ops.py:119-122 | the loop's successor index (i + 1) % n stays in range and picks the vertex that the edge term of i pairs with |
| SpatialOps.AreaRotationInvariant | geocomputing/spatial_ops.py:119-124 | starting the ring at the next vertex leaves the area unchanged |
| SpatialOps.ReversedEdges | geocomputing/spatial_ops.py:119-122 | the edge terms of the reversed ring are the negated, reversed edge terms, with the closing edge last |
| SpatialOps.AreaReversalInvariant | geocomputing/spatial_ops.py:119-124 | listing the vertices in the opposite orientation leaves the area unchanged |
| SpatialOps.RectangleArea | geocomputing/spatial_ops.py:112-129 | an axis-aligned w × h degree rectangle has area w·h·111² km² wherever it lies |
| SpatialOps.NumberOf | geocomputing/spatial_ops.py:199-202 | a coordinate entry is a number exactly when it is a number or a bool, with True and False standing for 1 and 0 as Python's ints |
| SpatialOps.Anchor | geocomputing/spatial_ops.py:188-198 | a feature has a comparison point only if it has a dict geometry whose coordinates are a list of at least two entries |
| SpatialOps.FeaturesIntersect | geocomputing/spatial_ops.py:176-205 | two features can intersect only if both have a comparison point; a missing geometry, coordinates entry or second coordinate on either side gives False |
| SpatialOps.FeaturesIntersectAt | geocomputing/spatial_ops.py:188-205 | two features whose coordinates start at (x1, y1) and (x2, y2) intersect if and only if dist((x1, y1), (x2, y2)) < 1.0 |
| SpatialOps.NoCoordinatesNoIntersection | geocomputing/spatial_ops.py:188-205 | a feature without geometry, without coordinates or with fewer than two coordinates intersects nothing, on either side |
| SpatialOps.FeaturesIntersectSymmetric | geocomputing/spatial_ops.py:199-203 | with a symmetric distance, intersection does not depend on argument order |
| SpatialOps.MergeContents | geocomputing/spatial_ops.py:156-160 | the merged record has both features' keys plus "overlay_type"; the second feature's values override the first's; "overlay_type" is "intersection" |
| SpatialOps.SpatialOverlay | geocomputing/spatial_ops.py:132-173 | the nested loops return Overlay: the row-major intersection, the concatenation for "union", the filtered first layer for "difference", and [] for any other operation |
| SpatialOps.UnionKeepsBothLayers | geocomputing/spatial_ops.py:162-164 | the union has length \|layer1\| + \|layer2\|, with layer1 first and layer2 after it, both in order |
| SpatialOps.MatchesSound | geocomputing/spatial_ops.py:154-160 | every record merged for one feature comes from a feature of the second layer that it intersects |
| SpatialOps.MatchesComplete | geocomputing/spatial_ops.py:154-160 | every second-layer feature that the feature intersects contributes its merge |
| SpatialOps.MatchesMembers | geocomputing/spatial_ops.py:154-160 | a record is merged for one feature if and only if it is the merge with an intersecting feature of the second layer |
| SpatialOps.IntersectionSound | geocomputing/spatial_ops.py:151-160 | every record of the intersection merges some intersecting pair (f1 from layer1, f2 from layer2) |
| SpatialOps.IntersectionComplete | geocomputing/spatial_ops.py:151-160 | every intersecting pair contributes its merge to the intersection |
| SpatialOps.IntersectionMembers | geocomputing/spatial_ops.py:151-160 | a record is in the intersection if and only if it merges an intersecting pair |
| SpatialOps.MatchesLength | geocomputing/spatial_ops.py:154-160 | one feature yields at most one merged record per second-layer feature, and exactly one for each if and only if it intersects them all |
| SpatialOps.MatchesEmpty | geocomputing/spatial_ops.py:154-160 | one feature yields no merged record if and only if it intersects no second-layer feature |
| SpatialOps.IntersectionLength | geocomputing/spatial_ops.py:151-160 | the intersection holds at most one record per pair, \|layer1\| · \|layer2\| in all, and exactly that many when every pair intersects |
| SpatialOps.IntersectionRowMajor | geocomputing/spatial_ops.py:153-160 | the intersection is built row by row: splitting the first layer splits the result in the same order |
| SpatialOps.IntersectionWithEmptyLayer | geocomputing/spatial_ops.py:151-160 | intersecting with an empty second layer gives [] |
| SpatialOps.DifferenceMembers | geocomputing/spatial_ops.py:166-171 | a feature is in the difference if and only if it is in the first layer and intersects no feature of the second |
| SpatialOps.DifferencePreservesOrder | geocomputing/spatial_ops.py:166-171 | the difference is an order-preserving filter: splitting the first layer splits the result |
| SpatialOps.DifferenceWithEmptyLayer | geocomputing/spatial_ops.py:166-171 | subtracting an empty layer returns the first layer unchanged |
| Analysis.NeighborsUpToExact | geocomputing/analysis.py:67-73 | the neighbour list is strictly ascending and holds exactly the indices other than the centre within the radius |
| Analysis.GetNeighbors | geocomputing/analysis.py:51-73 | the loop returns the neighbour list: ascending, never the centre, and holding i if and only if i != index and dist(points[index], points[i]) <= radius |
| Analysis.VisitNeighbor | geocomputing/analysis.py:103-108 | exactly the entry for `neighbor` becomes visited; the neighbours of a point visited for the first time are returned for the worklist when there are at least min_points of them, and [] otherwise |
| Analysis.DistinctBelow | geocomputing/analysis.py:99-108 | distinct indices below n number at most n, which bounds the worklist extensions |
| Analysis.ExpandStep | geocomputing/analysis.py:100-113 | one iteration keeps the loop invariant: the seed stays first, there are no duplicates, every member is visited and lies within the radius of an earlier member that is the seed or a core point (one with at least min_points neighbours), every worklist entry comes from the seed's or a core point's neighbour list, marks are only set, and the extensions stay distinct |
| Analysis.ScanNext | geocomputing/analysis.py:101-113 | one iteration marks the next worklist entry visited and changes no other mark, appends that entry's neighbours to the worklist exactly when it was unvisited and has at least min_points of them, adds it to the cluster unless it is there, and keeps the whole loop invariant |
| Analysis.ClosingStep | geocomputing/analysis.py:100-113 | one iteration keeps the closure invariant: every scanned worklist entry is in the cluster, the initial neighbours stay in the worklist, and every point that extended the worklist put all its neighbours there |
| Analysis.ExpandCluster | geocomputing/analysis.py:76-113 | the cluster starts with the seed, has no duplicates, holds only in-range visited indices, and grew by neighbourhood: every later member lies within the radius of an earlier member that is the seed or a core point; every initial neighbour is in the cluster; visited only gains marks, all of them on cluster members; the worklist extensions are exactly the cluster members that were unvisited on entry and have at least min_points neighbours, and all their neighbours are in the cluster |
| Analysis.SkipOrNoise | geocomputing/analysis.py:35-42 | a visited point or a noise point keeps the outer loop invariant |
| Analysis.AddCluster | geocomputing/analysis.py:43-46 | a cluster seeded at an unvisited point with at least min_points neighbours keeps the outer loop invariant |
| Analysis.ClusterSize | geocomputing/analysis.py:39-46 | a duplicate-free cluster holding its seed and the seed's at least min_points neighbours has more than min_points members |
| Analysis.CloseNewCluster | geocomputing/analysis.py:43-46 | appending a cluster seeded at an unvisited point keeps every cluster visited, larger than min_points, holding its seed's neighbours, and its seed out of the earlier clusters |
| Analysis.CloseCluster | geocomputing/analysis.py:43-46 | the new cluster keeps the clusters closed: a core member held by no earlier cluster is the seed or was unvisited before the expansion, so all its neighbours joined the cluster |
| Analysis.ExamineNext | geocomputing/analysis.py:35-46 | one iteration skips a visited point, records an unvisited point with fewer than min_points neighbours as noise, and otherwise appends one cluster seeded at it; it keeps the outer loop invariant |
| Analysis.DetectClusters | geocomputing/analysis.py:13-48 | every cluster is duplicate-free, in range, grown by neighbourhood from a seed with at least min_points neighbours, each later member lying within the radius of an earlier member that is the seed or a core point (so a point reachable only through a border point is left out), holds all the seed's neighbours and so has more than min_points members; seeds strictly increase and no seed is in an earlier cluster; every point with at least min_points neighbours is in some cluster, and the first cluster holding it holds all its neighbours, so a density-connected group is never split at a core point |
| Analysis.DetectedClusters | geocomputing/analysis.py:34-48 | once the loop has passed every point, its invariant gives all of the above |
| Analysis.InverseDistanceWeight | geocomputing/analysis.py:149 | the weight 1/(d + 0.1) is positive for every non-negative distance |
| Analysis.AddRow | geocomputing/analysis.py:145-152 | the inner loop adds row i's numerator terms w_ij (v_i − mean)(v_j − mean) and weights w_ij = 1/(d + 0.1), for every j != i, to the running totals |
| Analysis.PairSums | geocomputing/analysis.py:144-152 | the double loop accumulates the Moran numerator and the weight sum over all ordered pairs of distinct points |
| Analysis.DeviationSum | geocomputing/analysis.py:154-155 | the second loop accumulates Σ (v_i − mean)² |
| Analysis.SpatialAutocorrelation | geocomputing/analysis.py:116-163 | returns Moran's I = (n / Σw) · (numerator / denominator); returns 0 for mismatched lengths, fewer than two points, a method other than "moran", or a zero denominator or weight sum |
| Analysis.WeightSumPositive | geocomputing/analysis.py:144-158 | with at least two points the weight sum is positive, so its zero guard never fires |
| Analysis.SquaredDeviationsNonNegative | geocomputing/analysis.py:154-155 | the denominator is non-negative and bounds each squared deviation |
| Analysis.ZeroDeviationsIffConstant | geocomputing/analysis.py:154-158 | the denominator is zero if and only if every value equals the mean |
| Analysis.MeanOfConstant | geocomputing/analysis.py:136 | the mean of values that are all c is c |
| Analysis.ConstantValuesHaveZeroMoran | geocomputing/analysis.py:132-161 | values that are all equal give index 0 |
| Analysis.HotspotAnalysis | geocomputing/analysis.py:166-222 | the loops return the hotspot report, which is [] for mismatched or empty input or zero spread |
| Analysis.HotspotEntries | geocomputing/analysis.py:205-220 | every entry carries its point's coordinates, value, local mean and z-score; \|z\| > 1.96; "hot" if and only if z > 0; "high" if and only if \|z\| > 2.58 |
| Analysis.HotspotsIncreasing | geocomputing/analysis.py:194-220 | entries appear in strictly increasing index order |
| Analysis.HotspotsReportSignificant | geocomputing/analysis.py:194-220 | a point is reported if and only if it has a neighbourhood and \|z\| > 1.96 |
| SpatialSimulator.BuildPlaceGraph | spatial_simulator.py:80-113 | the graph has no nodes or edges and keeps the four input layers unchanged under its metadata |
| SpatialSimulator.AnalyzePlaceDynamics | spatial_simulator.py:116-139 | patterns, risks and inequities are empty, whatever the graph |
| SpatialSimulator.BuildAgents | spatial_simulator.py:142-163 | one agent per requested type, in the same order, each with empty preferences and constraints |
| SpatialSimulator.BuildAgentsConcat | spatial_simulator.py:162 | building agents for two type lists is building them for each list in turn |
| SpatialSimulator.SimulateNegotiation | spatial_simulator.py:166-195 | the outcome has empty states, allocation, conflicts and compromises, whatever the inputs |
| SpatialSimulator.GenerateScenarioVariants | spatial_simulator.py:198-221 | the keys are exactly the requested modes, each holding an empty spatial configuration and temporal trajectory |
| SpatialSimulator.ScenarioCount | spatial_simulator.py:220 | there are never more scenarios than modes, and exactly one per mode when the modes are distinct |
| SpatialSimulator.EvaluateTradeoffs | spatial_simulator.py:224-254 | scores and trade-offs are empty; explanations are None if and only if xai is off and audit_trail is None if and only if audit is off, and each is empty when present |
| SpatialSimulator.VisualizeXr | spatial_simulator.py:257-287 | the overlay keys are exactly the requested overlays, each holding an empty record, and every other part is empty |
| SpatialSimulator.OverlayCount | spatial_simulator.py:283 | there are never more overlay slots than overlays, and exactly one per overlay when they are distinct |
| SpatialSimulator.GenerateSpatialScenario | spatial_simulator.py:16-77 | the scenarios are keyed by the four modes and the overlay slots by the four overlays; explanations and audit trail are present; the graph keeps the input layers; the detected fields are the dynamics outputs |
| SpatialSimulator.PipelineAgents | spatial_simulator.py:49 | the pipeline builds exactly the agents efficiency, equity, biodiversity, memory, in that order |
| SpatialSimulator.ScenarioBundleShape | spatial_simulator.py:55-67 | the bundle holds exactly four scenarios (base, disruptive, utopian, hybrid) and four overlay slots (justice, risk, access, memory), the requested modes and overlays being four distinct names each |

## Left out

- The haversine formula (geocomputing/spatial_ops.py:69-87) is a `Metric` parameter; `math.sqrt` and the `log(tan(...))` ordinate of Web Mercator are function parameters. Only their use is modelled. Where a proof needs a property of the haversine distance (non-negative, symmetric), the property is a precondition.
- Python floats are modelled as reals. Rounding, overflow, NaN and infinity are not modelled.
- Analysis.ZeroDeviationsIffConstant: holds over reals only. With floats the mean of equal values can differ from them by rounding: for [0.1, 0.1, 0.1] the denominator is about 5.8e-34 rather than 0, so the zero guard does not fire.
- Analysis.MeanOfConstant: holds over reals only. With floats, summing n copies of c and dividing by n need not give c exactly.
- Analysis.ConstantValuesHaveZeroMoran: holds over reals only. With floats, for [0.1, 0.1, 0.1] the rounded numerator and denominator give an index of about 1.0, not 0.
- SpatialOps.Anchor: when Python's short-circuiting `and` chain reaches them (geocomputing/spatial_ops.py:188-197), Python raises `TypeError` in several cases that the model treats as "no comparison point" (so the features do not intersect, and the overlay goes on instead of raising). These cases are a geometry that is `None`, a number or a bool (the `in` test itself raises); a geometry that is a string or list holding "coordinates"; coordinates that are not numbers or bools; and nested coordinate lists.
- Default arguments are not modelled: every caller passes every argument. The source's defaults are `radius=1.0` and `min_points=3` for `detect_clusters`, `method="moran"` for `spatial_autocorrelation`, `radius=5.0` for `hotspot_analysis`, `from_crs="EPSG:4326"` and `to_crs="EPSG:3857"` for `transform_coordinates`, `method="haversine"` for `calculate_distance` and `operation="intersection"` for `spatial_overlay`.
- Dict key order is not modelled. Records, scenarios and overlay slots are maps, so equality ignores insertion order.
- Analysis.DetectClusters: the noise list is built but, as in the source, never returned. The contract bounds each cluster from both sides. Every member is reached from the seed through the seed or core points, and every neighbour of a core point the cluster holds first is in it. The exact member list is still not fixed. A core point already expanded by an earlier cluster may justify a member here, although the source does not expand it again. So the contract does not say which later clusters also take in a border point shared with an earlier one.
- Analysis.DetectedClusters: promises what Analysis.DetectClusters promises, with the same gap in the exact member list.
- Analysis.ExpandCluster: states the invariants of the cluster rather than its exact member list. These are: seed first, distinct, chained through the seed or core points, visited, and closed under the extensions. A member may be justified by a core member that was visited on entry, and the source does not expand such a member. The worklist is a local sequence here. In the source it is the caller's `neighbors` list, extended in place, and that aliasing is not modelled.
- Analysis.VisitNeighbor, Analysis.ScanNext, Analysis.ExamineNext, Analysis.AddRow, Analysis.PairSums and Analysis.DeviationSum are helper methods holding loops or loop bodies that the source writes inline. The order of arithmetic is the source's.
- Analysis.HotspotAnalysis: the standard deviation is `sqrt` applied to the population variance, with `sqrt` a parameter. Only whether it is zero matters to the guard.
- `api.py`, `main.py`, `ejemplo_geocomputing.py`, `seed_data.py` and `geocomputing/__init__.py` are not part of this model. They are HTTP plumbing, console drivers, test data and re-exports.
- SpatialSimulator.GenerateSpatialScenario: the agent list and the negotiation outcome are built but never reach the returned bundle, as in the source. The visualisation does not depend on the evaluation.

=== FILE: analysis.dfy ===
/** Spatial analysis: a simplified DBSCAN-style clustering, Moran's I spatial
    autocorrelation and hotspot detection (geocomputing/analysis.py). The
    distance between two points is the haversine distance, given as `dist`. */
module Analysis {
  import opened Common

  // ---------------------------------------------------------------------------
  // _get_neighbors
  // ---------------------------------------------------------------------------

  /** Point `o` lies within `radius` of the centre `c`. */
  predicate Near(points: seq<Point>, c: int, o: int, radius: real, dist: Metric)
  {
    0 <= c < |points| && 0 <= o < |points| && dist(points[c], points[o]) <= radius
  }

  /** The neighbours of `index` among the first `k` points, in index order. */
  function NeighborsUpTo(points: seq<Point>, index: nat, radius: real, dist: Metric, k: nat): seq<nat>
    requires k <= |points|
  {
    if k == 0 then []
    else NeighborsUpTo(points, index, radius, dist, k - 1) +
         (if k - 1 != index && Near(points, index, k - 1, radius, dist) then [k - 1] else [])
  }

  /** The neighbour list `_get_neighbors` returns for `index`. */
  function Neighbors(points: seq<Point>, index: nat, radius: real, dist: Metric): seq<nat>
  {
    NeighborsUpTo(points, index, radius, dist, |points|)
  }

  predicate StrictlyIncreasing(s: seq<nat>)
  {
    forall a, b :: 0 <= a < b < |s| ==> s[a] < s[b]
  }

  /** The neighbour list is ascending, never holds the centre, and holds exactly
      the points within `radius` of it. */
  lemma {:induction false} NeighborsUpToExact(points: seq<Point>, index: nat, radius: real, dist: Metric, k: nat)
    requires k <= |points|
    ensures var nb := NeighborsUpTo(points, index, radius, dist, k);
            StrictlyIncreasing(nb) &&
            (forall w :: 0 <= w < |nb| ==> nb[w] < k) &&
            (forall i :: 0 <= i < k ==> (i in nb <==> i != index && Near(points, index, i, radius, dist)))
  {
    if k > 0 {
      NeighborsUpToExact(points, index, radius, dist, k - 1);
      var prev := NeighborsUpTo(points, index, radius, dist, k - 1);
      assert k - 1 !in prev;
    }
  }

  method GetNeighbors(points: seq<Point>, index: nat, radius: real, dist: Metric) returns (neighbors: seq<nat>)
    requires index < |points|
    ensures neighbors == Neighbors(points, index, radius, dist)
    ensures StrictlyIncreasing(neighbors)
    ensures forall w :: 0 <= w < |neighbors| ==>
              neighbors[w] != index && Near(points, index, neighbors[w], radius, dist)
    ensures forall i :: 0 <= i < |points| ==>
              (i in neighbors <==> i != index && Near(points, index, i, radius, dist))
  {
    neighbors := [];
    for i := 0 to |points|
      invariant neighbors == NeighborsUpTo(points, index, radius, dist, i)
    {
      if i != index {
        var d := dist(points[index], points[i]);
        if d <= radius {
          neighbors := neighbors + [i];
        }
      }
    }
    NeighborsUpToExact(points, index, radius, dist, |points|);
    forall w | 0 <= w < |neighbors|
      ensures neighbors[w] != index && Near(points, index, neighbors[w], radius, dist)
    {
      assert neighbors[w] in neighbors;
    }
  }

  // ---------------------------------------------------------------------------
  // _expand_cluster and detect_clusters
  // ---------------------------------------------------------------------------

  /** Member `m` is the seed or has at least `minPoints` neighbours, and member `k`
      lies within `radius` of it: `k` can have joined the cluster from `m`'s
      neighbour list. */
  ghost predicate Feeds(points: seq<Point>, cluster: seq<nat>, radius: real, minPoints: int, dist: Metric,
                        m: nat, k: nat)
    requires m < |cluster| && k < |cluster|
  {
    Near(points, cluster[m], cluster[k], radius, dist) &&
    (m == 0 || |Neighbors(points, cluster[m], radius, dist)| >= minPoints)
  }

  /** Every member after the first is fed by an earlier member: the cluster grew
      by neighbourhood from its seed, and only the seed and core points passed
      their neighbours on, so a point reachable only through a border point stays
      out. */
  ghost predicate Chained(points: seq<Point>, cluster: seq<nat>, radius: real, minPoints: int, dist: Metric)
  {
    forall k :: 1 <= k < |cluster| ==> FedEarlier(points, cluster, radius, minPoints, dist, k)
  }

  /** Some member before `k` feeds member `k`. */
  ghost predicate FedEarlier(points: seq<Point>, cluster: seq<nat>, radius: real, minPoints: int, dist: Metric,
                             k: nat)
    requires k < |cluster|
  {
    exists m :: 0 <= m < k && Feeds(points, cluster, radius, minPoints, dist, m, k)
  }

  /** A cluster as `detect_clusters` reports it: non-empty, indices in range,
      no index twice, grown by neighbourhood from its first element. */
  ghost predicate IsCluster(points: seq<Point>, cluster: seq<nat>, radius: real, minPoints: int, dist: Metric)
  {
    |cluster| >= 1 && Distinct(cluster) &&
    (forall k :: 0 <= k < |cluster| ==> cluster[k] < |points|) &&
    Chained(points, cluster, radius, minPoints, dist)
  }

  /** Distinct indices below `n` number at most `n`. */
  lemma {:induction false} DistinctBelow(s: seq<nat>, n: nat)
    requires Distinct(s) && forall x :: x in s ==> x < n
    ensures |s| <= n
  {
    if s != [] {
      assert s[0] in s;
      if p :| 0 <= p < |s| && s[p] == n - 1 {
        var rest := s[..p] + s[p + 1..];
        assert forall a :: 0 <= a < |rest| ==> rest[a] == s[if a < p then a else a + 1];
        forall x | x in rest
          ensures x < n - 1
        {
          var a :| 0 <= a < |rest| && rest[a] == x;
          var b := if a < p then a else a + 1;
          assert s[b] == x && b != p && s[b] in s;
          if b < p { assert s[b] != s[p]; } else { assert s[p] != s[b]; }
        }
        DistinctBelow(rest, n - 1);
      } else {
        forall x | x in s
          ensures x < n - 1
        {
          var a :| 0 <= a < |s| && s[a] == x;
        }
        DistinctBelow(s, n - 1);
      }
    }
  }

  /** Every worklist entry lies within `radius` of the cluster member recorded as its parent. */
  ghost predicate Parented(points: seq<Point>, cluster: seq<nat>, worklist: seq<nat>, parent: seq<nat>,
                           radius: real, dist: Metric)
  {
    |parent| == |worklist| &&
    forall w :: 0 <= w < |worklist| ==>
      parent[w] < |cluster| && Near(points, cluster[parent[w]], worklist[w], radius, dist)
  }

  /** Every cluster member is a visited index. */
  ghost predicate Covered(visited: seq<bool>, cluster: seq<nat>)
  {
    forall k :: 0 <= k < |cluster| ==> cluster[k] < |visited| && visited[cluster[k]]
  }

  /** Marks only ever get set, and every newly set one belongs to the cluster. */
  ghost predicate VisitedGrew(before: seq<bool>, after: seq<bool>, cluster: seq<nat>)
  {
    |before| == |after| &&
    (forall j :: 0 <= j < |before| && before[j] ==> after[j]) &&
    (forall j :: 0 <= j < |after| && after[j] && !before[j] ==> j in cluster)
  }

  /** The cluster after the worklist entry `x` has been taken from the worklist. */
  function Grow(cluster: seq<nat>, x: nat): (grown: seq<nat>)
    ensures x in grown && cluster <= grown
  {
    if x in cluster then cluster else cluster + [x]
  }

  /** Every worklist entry's parent is the seed or a member with at least `minPoints` neighbours. */
  ghost predicate CoreParents(points: seq<Point>, cluster: seq<nat>, parent: seq<nat>, radius: real,
                              minPoints: int, dist: Metric)
  {
    forall w :: 0 <= w < |parent| ==>
      parent[w] < |cluster| && (parent[w] == 0 || |Neighbors(points, cluster[parent[w]], radius, dist)| >= minPoints)
  }

  /** `n` copies of `x`. */
  function Repeat(x: nat, n: nat): (r: seq<nat>)
    ensures |r| == n && forall k :: 0 <= k < n ==> r[k] == x
  {
    seq(n, _ => x)
  }

  /** The position of `x` in `s`. */
  function Find(s: seq<nat>, x: nat): (p: nat)
    requires x in s
    ensures p < |s| && s[p] == x
  {
    if s[0] == x then 0 else 1 + Find(s[1..], x)
  }

  /** What holds of `_expand_cluster`'s state at the head of every iteration:
      `initial` is the visited flags on entry, `parent` ties every worklist entry
      to the cluster member whose neighbour list it came from, and `expansions`
      lists the points whose neighbour lists extended the worklist. */
  ghost predicate Expanding(points: seq<Point>, index: nat, radius: real, minPoints: int, dist: Metric,
                            initial: seq<bool>, visited: seq<bool>, cluster: seq<nat>, worklist: seq<nat>,
                            parent: seq<nat>, expansions: seq<nat>)
  {
    |visited| == |points| && |cluster| >= 1 && cluster[0] == index && Distinct(cluster) &&
    Covered(visited, cluster) && Chained(points, cluster, radius, minPoints, dist) &&
    CoreParents(points, cluster, parent, radius, minPoints, dist) &&
    Parented(points, cluster, worklist, parent, radius, dist) &&
    VisitedGrew(initial, visited, cluster) &&
    Expansions(points, radius, minPoints, dist, initial, cluster, expansions)
  }

  /** The points recorded as expansions are distinct cluster members, unvisited
      on entry, with at least `minPoints` neighbours. */
  ghost predicate Expansions(points: seq<Point>, radius: real, minPoints: int, dist: Metric,
                             initial: seq<bool>, cluster: seq<nat>, expansions: seq<nat>)
  {
    Distinct(expansions) && |expansions| <= |points| &&
    forall x :: x in expansions ==>
      x < |points| && x < |initial| && x in cluster && !initial[x] &&
      |Neighbors(points, x, radius, dist)| >= minPoints
  }

  /** Recording `x` as an expansion when it was unvisited and has enough
      neighbours keeps `Expansions`, once `x` has joined the cluster. */
  lemma RecordExpansion(points: seq<Point>, radius: real, minPoints: int, dist: Metric,
                        initial: seq<bool>, visited: seq<bool>, cluster: seq<nat>, expansions: seq<nat>, x: nat)
    requires Expansions(points, radius, minPoints, dist, initial, cluster, expansions)
    requires VisitedGrew(initial, visited, cluster) && Covered(visited, cluster)
    requires x < |visited| == |points|
    ensures var expanded := !visited[x] && |Neighbors(points, x, radius, dist)| >= minPoints;
            Expansions(points, radius, minPoints, dist, initial, Grow(cluster, x),
                       if expanded then expansions + [x] else expansions)
  {
    if !visited[x] && |Neighbors(points, x, radius, dist)| >= minPoints {
      assert x !in expansions;
      AppendFresh(expansions, x);
      DistinctBelow(expansions + [x], |points|);
    }
  }

  /** Taking the worklist entry `i` into the cluster keeps it chained. */
  lemma GrowChained(points: seq<Point>, cluster: seq<nat>, worklist: seq<nat>, parent: seq<nat>,
                    radius: real, minPoints: int, dist: Metric, i: nat)
    requires Parented(points, cluster, worklist, parent, radius, dist) && i < |worklist|
    requires CoreParents(points, cluster, parent, radius, minPoints, dist)
    requires Chained(points, cluster, radius, minPoints, dist)
    ensures Chained(points, Grow(cluster, worklist[i]), radius, minPoints, dist)
  {
    var grown := Grow(cluster, worklist[i]);
    forall k | 1 <= k < |grown|
      ensures FedEarlier(points, grown, radius, minPoints, dist, k)
    {
      if k == |cluster| {
        assert Feeds(points, grown, radius, minPoints, dist, parent[i], k);
      } else {
        assert k < |cluster| && FedEarlier(points, cluster, radius, minPoints, dist, k);
        var m :| 0 <= m < k && Feeds(points, cluster, radius, minPoints, dist, m, k);
        assert grown[m] == cluster[m] && grown[k] == cluster[k];
        assert Feeds(points, grown, radius, minPoints, dist, m, k);
      }
    }
  }

  /** Appending entries whose parent is the member at `pos`, the seed or a core
      point whenever there are any, keeps every parent the seed or a core point. */
  lemma ExtendCoreParents(points: seq<Point>, cluster: seq<nat>, grown: seq<nat>, parent: seq<nat>,
                          radius: real, minPoints: int, dist: Metric, pos: nat, more: seq<nat>)
    requires CoreParents(points, cluster, parent, radius, minPoints, dist) && cluster <= grown && pos < |grown|
    requires |more| > 0 ==> pos == 0 || |Neighbors(points, grown[pos], radius, dist)| >= minPoints
    ensures CoreParents(points, grown, parent + Repeat(pos, |more|), radius, minPoints, dist)
  {
    var parent' := parent + Repeat(pos, |more|);
    forall w | 0 <= w < |parent'|
      ensures parent'[w] < |grown| &&
              (parent'[w] == 0 || |Neighbors(points, grown[parent'[w]], radius, dist)| >= minPoints)
    {
      if w < |parent| {
        assert parent'[w] == parent[w] && grown[parent[w]] == cluster[parent[w]];
      } else {
        assert parent'[w] == pos;
      }
    }
  }

  /** Appending an element not yet present keeps a sequence duplicate-free. */
  lemma AppendFresh(s: seq<nat>, x: nat)
    requires Distinct(s) && x !in s
    ensures Distinct(s + [x])
  {
    forall a, b | 0 <= a < b < |s + [x]|
      ensures (s + [x])[a] != (s + [x])[b]
    {
      if b == |s| {
        assert (s + [x])[a] in s;
      }
    }
  }

  /** Appending neighbours of the member at `pos` to the worklist keeps every
      entry tied to a parent, also once the cluster has grown. */
  lemma ExtendWorklist(points: seq<Point>, cluster: seq<nat>, grown: seq<nat>, worklist: seq<nat>,
                       parent: seq<nat>, radius: real, dist: Metric, pos: nat, more: seq<nat>)
    requires Parented(points, cluster, worklist, parent, radius, dist) && cluster <= grown && pos < |grown|
    requires forall w :: 0 <= w < |more| ==> Near(points, grown[pos], more[w], radius, dist)
    ensures Parented(points, grown, worklist + more, parent + Repeat(pos, |more|), radius, dist)
  {
    var parent' := parent + Repeat(pos, |more|);
    forall w | 0 <= w < |worklist + more|
      ensures parent'[w] < |grown| && Near(points, grown[parent'[w]], (worklist + more)[w], radius, dist)
    {
      if w < |worklist| {
        assert grown[parent[w]] == cluster[parent[w]];
      }
    }
  }

  /** Marking `x` visited while taking it into the cluster keeps the visited
      bookkeeping. */
  lemma MarkVisited(initial: seq<bool>, visited: seq<bool>, cluster: seq<nat>, x: nat)
    requires VisitedGrew(initial, visited, cluster) && Covered(visited, cluster) && x < |visited|
    ensures VisitedGrew(initial, visited[x := true], Grow(cluster, x))
    ensures Covered(visited[x := true], Grow(cluster, x))
  {
  }

  /** One iteration of `_expand_cluster`'s loop preserves `Expanding`. */
  lemma ExpandStep(points: seq<Point>, index: nat, radius: real, minPoints: int, dist: Metric,
                   initial: seq<bool>, visited: seq<bool>, cluster: seq<nat>, worklist: seq<nat>,
                   parent: seq<nat>, expansions: seq<nat>, i: nat, more: seq<nat>)
    requires Expanding(points, index, radius, minPoints, dist, initial, visited, cluster, worklist, parent, expansions)
    requires i < |worklist|
    requires forall w :: 0 <= w < |more| ==> Near(points, worklist[i], more[w], radius, dist)
    requires |more| > 0 ==> |Neighbors(points, worklist[i], radius, dist)| >= minPoints
    ensures var x := worklist[i];
            var grown := Grow(cluster, x);
            var expanded := !visited[x] && |Neighbors(points, x, radius, dist)| >= minPoints;
            Expanding(points, index, radius, minPoints, dist, initial, visited[x := true], grown,
                      worklist + more, parent + Repeat(Find(grown, x), |more|),
                      if expanded then expansions + [x] else expansions)
  {
    var x := worklist[i];
    var grown := Grow(cluster, x);
    GrowChained(points, cluster, worklist, parent, radius, minPoints, dist, i);
    ExtendCoreParents(points, cluster, grown, parent, radius, minPoints, dist, Find(grown, x), more);
    if x !in cluster {
      AppendFresh(cluster, x);
    }
    ExtendWorklist(points, cluster, grown, worklist, parent, radius, dist, Find(grown, x), more);
    MarkVisited(initial, visited, cluster, x);
    RecordExpansion(points, radius, minPoints, dist, initial, visited, cluster, expansions, x);
  }

  /** The closure half of `_expand_cluster`'s state: the initial neighbour list
      stays at the head of the worklist, every entry scanned so far is in the
      cluster, the neighbours of every expansion are on the worklist, and every
      core member that was unvisited on entry has been expanded. */
  ghost predicate Closing(points: seq<Point>, radius: real, minPoints: int, dist: Metric, initial: seq<bool>,
                          neighbors: seq<nat>, cluster: seq<nat>, worklist: seq<nat>, i: nat, expansions: seq<nat>)
  {
    neighbors <= worklist && i <= |worklist| &&
    (forall w :: 0 <= w < i ==> worklist[w] in cluster) &&
    (forall x :: x in expansions ==> forall y :: y in Neighbors(points, x, radius, dist) ==> y in worklist) &&
    (forall x :: x in cluster && x < |initial| && !initial[x] && |Neighbors(points, x, radius, dist)| >= minPoints ==>
       x in expansions)
  }

  /** One iteration of `_expand_cluster`'s loop preserves `Closing`. */
  lemma ClosingStep(points: seq<Point>, radius: real, minPoints: int, dist: Metric, initial: seq<bool>,
                    visited: seq<bool>, neighbors: seq<nat>, cluster: seq<nat>, worklist: seq<nat>, i: nat,
                    expansions: seq<nat>, more: seq<nat>)
    requires Closing(points, radius, minPoints, dist, initial, neighbors, cluster, worklist, i, expansions)
    requires VisitedGrew(initial, visited, cluster) && i < |worklist| && worklist[i] < |visited|
    requires more == if !visited[worklist[i]] && |Neighbors(points, worklist[i], radius, dist)| >= minPoints
                     then Neighbors(points, worklist[i], radius, dist) else []
    ensures var x := worklist[i];
            var expanded := !visited[x] && |Neighbors(points, x, radius, dist)| >= minPoints;
            Closing(points, radius, minPoints, dist, initial, neighbors, Grow(cluster, x), worklist + more, i + 1,
                    if expanded then expansions + [x] else expansions)
  {
    var x := worklist[i];
    var grown := Grow(cluster, x);
    var expanded := !visited[x] && |Neighbors(points, x, radius, dist)| >= minPoints;
    var expansions' := if expanded then expansions + [x] else expansions;
    var worklist' := worklist + more;
    forall w | 0 <= w < i + 1 ensures worklist'[w] in grown {
      assert worklist'[w] == worklist[w];
    }
    forall e | e in expansions' ensures forall y :: y in Neighbors(points, e, radius, dist) ==> y in worklist' {
      if e in expansions {
        forall y | y in Neighbors(points, e, radius, dist) ensures y in worklist' {
          assert y in worklist;
        }
      } else {
        assert e == x && more == Neighbors(points, x, radius, dist);
        forall y | y in more ensures y in worklist' {
          var k :| 0 <= k < |more| && more[k] == y;
          assert worklist'[|worklist| + k] == y;
        }
      }
    }
    forall y | y in grown && y < |initial| && !initial[y] && |Neighbors(points, y, radius, dist)| >= minPoints
      ensures y in expansions'
    {
      if y !in cluster {
        assert y == x && !visited[x];
      }
    }
  }

  /** Once the whole worklist is scanned, the cluster holds the initial neighbours
      and the neighbours of every expansion. */
  lemma ClosingExit(points: seq<Point>, radius: real, minPoints: int, dist: Metric, initial: seq<bool>,
                    neighbors: seq<nat>, cluster: seq<nat>, worklist: seq<nat>, expansions: seq<nat>)
    requires Closing(points, radius, minPoints, dist, initial, neighbors, cluster, worklist, |worklist|, expansions)
    ensures forall w :: 0 <= w < |neighbors| ==> neighbors[w] in cluster
    ensures forall x :: x in expansions ==> forall y :: y in Neighbors(points, x, radius, dist) ==> y in cluster
  {
    forall w | 0 <= w < |neighbors| ensures neighbors[w] in cluster {
      assert neighbors[w] == worklist[w];
    }
    forall x, y | x in expansions && y in Neighbors(points, x, radius, dist) ensures y in cluster {
      var k :| 0 <= k < |worklist| && worklist[k] == y;
    }
  }

  /** Marks `neighbor` visited; the first time, its neighbour list is computed and
      returned for the worklist when it has at least `minPoints` entries. */
  method VisitNeighbor(points: seq<Point>, neighbor: nat, visited: array<bool>, radius: real, minPoints: int,
                       dist: Metric)
    returns (more: seq<nat>)
    requires neighbor < visited.Length == |points|
    modifies visited
    ensures visited[..] == old(visited[..])[neighbor := true]
    ensures more == if !old(visited[neighbor]) && |Neighbors(points, neighbor, radius, dist)| >= minPoints
                    then Neighbors(points, neighbor, radius, dist) else []
    ensures forall w :: 0 <= w < |more| ==> Near(points, neighbor, more[w], radius, dist)
  {
    more := [];
    if !visited[neighbor] {
      visited[neighbor] := true;
      var newNeighbors := GetNeighbors(points, neighbor, radius, dist);
      if |newNeighbors| >= minPoints {
        more := newNeighbors;
      }
    }
  }

  /** The whole state `_expand_cluster` keeps at the head of every iteration. */
  ghost predicate ExpandState(points: seq<Point>, index: nat, radius: real, minPoints: int, dist: Metric,
                              initial: seq<bool>, neighbors: seq<nat>, visited: seq<bool>, cluster: seq<nat>,
                              worklist: seq<nat>, parent: seq<nat>, i: nat, expansions: seq<nat>)
  {
    Expanding(points, index, radius, minPoints, dist, initial, visited, cluster, worklist, parent, expansions) &&
    Closing(points, radius, minPoints, dist, initial, neighbors, cluster, worklist, i, expansions)
  }

  /** One iteration of `_expand_cluster`'s loop, with `more` the entries it appends
      to the worklist, preserves `ExpandState`. */
  lemma Iterate(points: seq<Point>, index: nat, radius: real, minPoints: int, dist: Metric,
                initial: seq<bool>, neighbors: seq<nat>, visited: seq<bool>, cluster: seq<nat>,
                worklist: seq<nat>, parent: seq<nat>, i: nat, expansions: seq<nat>, more: seq<nat>)
    requires ExpandState(points, index, radius, minPoints, dist, initial, neighbors, visited, cluster, worklist,
                         parent, i, expansions)
    requires i < |worklist|
    requires more == if !visited[worklist[i]] && |Neighbors(points, worklist[i], radius, dist)| >= minPoints
                     then Neighbors(points, worklist[i], radius, dist) else []
    requires forall w :: 0 <= w < |more| ==> Near(points, worklist[i], more[w], radius, dist)
    ensures var x := worklist[i];
            var grown := Grow(cluster, x);
            var expanded := !visited[x] && |Neighbors(points, x, radius, dist)| >= minPoints;
            ExpandState(points, index, radius, minPoints, dist, initial, neighbors, visited[x := true], grown,
                        worklist + more, parent + Repeat(Find(grown, x), |more|), i + 1,
                        if expanded then expansions + [x] else expansions)
  {
    ExpandStep(points, index, radius, minPoints, dist, initial, visited, cluster, worklist, parent,
               expansions, i, more);
    ClosingStep(points, radius, minPoints, dist, initial, visited, neighbors, cluster, worklist, i,
                expansions, more);
  }

  /** One iteration of `_expand_cluster`'s loop: takes `worklist[i]`, visits it,
      appends its neighbours to the worklist when it is a newly visited core
      point, and adds it to the cluster unless it is already there. */
  method ScanNext(points: seq<Point>, index: nat, neighbors: seq<nat>, visited: array<bool>, radius: real,
                  minPoints: int, dist: Metric, ghost initial: seq<bool>, cluster: seq<nat>, worklist: seq<nat>,
                  ghost parent: seq<nat>, i: nat, ghost expansions: seq<nat>)
    returns (cluster': seq<nat>, worklist': seq<nat>, ghost parent': seq<nat>, ghost expansions': seq<nat>)
    requires visited.Length == |points| && i < |worklist|
    requires ExpandState(points, index, radius, minPoints, dist, initial, neighbors, visited[..], cluster,
                         worklist, parent, i, expansions)
    modifies visited
    ensures ExpandState(points, index, radius, minPoints, dist, initial, neighbors, visited[..], cluster',
                        worklist', parent', i + 1, expansions')
    ensures cluster' == Grow(cluster, worklist[i])
    ensures visited[..] == old(visited[..])[worklist[i] := true]
    ensures worklist' == worklist +
              if !old(visited[worklist[i]]) && |Neighbors(points, worklist[i], radius, dist)| >= minPoints
              then Neighbors(points, worklist[i], radius, dist) else []
    ensures (|expansions'| == |expansions| + 1 && |expansions'| <= |points|) ||
            (expansions' == expansions && worklist' == worklist)
  {
    var neighbor := worklist[i];
    ghost var visitedBefore := visited[..];
    ghost var expanded := !visited[neighbor] && |Neighbors(points, neighbor, radius, dist)| >= minPoints;
    var more := VisitNeighbor(points, neighbor, visited, radius, minPoints, dist);
    Iterate(points, index, radius, minPoints, dist, initial, neighbors, visitedBefore, cluster, worklist,
            parent, i, expansions, more);
    parent' := parent + Repeat(Find(Grow(cluster, neighbor), neighbor), |more|);
    worklist' := worklist + more;
    expansions' := if expanded then expansions + [neighbor] else expansions;
    cluster' := if neighbor in cluster then cluster else cluster + [neighbor];
  }

  /** What `ExpandState` gives once the whole worklist has been scanned. */
  lemma ExpandExit(points: seq<Point>, index: nat, radius: real, minPoints: int, dist: Metric,
                   initial: seq<bool>, neighbors: seq<nat>, visited: seq<bool>, cluster: seq<nat>,
                   worklist: seq<nat>, parent: seq<nat>, expansions: seq<nat>)
    requires ExpandState(points, index, radius, minPoints, dist, initial, neighbors, visited, cluster, worklist,
                         parent, |worklist|, expansions)
    ensures IsCluster(points, cluster, radius, minPoints, dist) && cluster[0] == index
    ensures Covered(visited, cluster) && VisitedGrew(initial, visited, cluster)
    ensures Distinct(expansions) && |expansions| <= |points|
    ensures forall x :: x in expansions ==>
              x in cluster && x < |initial| && !initial[x] && |Neighbors(points, x, radius, dist)| >= minPoints
    ensures forall w :: 0 <= w < |neighbors| ==> neighbors[w] in cluster
    ensures forall x :: x in cluster && x < |initial| && !initial[x] &&
                        |Neighbors(points, x, radius, dist)| >= minPoints
                        ==> x in expansions
    ensures forall x :: x in expansions ==> forall y :: y in Neighbors(points, x, radius, dist) ==> y in cluster
  {
    ClosingExit(points, radius, minPoints, dist, initial, neighbors, cluster, worklist, expansions);
  }

  /** Grows the cluster seeded at `index` from its neighbour list. The worklist
      is extended, in place, by the neighbours of every newly visited point that
      has at least `minPoints` of them; every point taken from the worklist joins
      the cluster unless it is already in it, even one that an earlier cluster or
      the noise list already holds. `expansions` records the points whose
      neighbour lists extended the worklist. */
  method ExpandCluster(points: seq<Point>, index: nat, neighbors: seq<nat>, visited: array<bool>,
                       radius: real, minPoints: int, dist: Metric)
    returns (cluster: seq<nat>, ghost expansions: seq<nat>)
    requires visited.Length == |points| && index < |points| && visited[index]
    requires forall w :: 0 <= w < |neighbors| ==> Near(points, index, neighbors[w], radius, dist)
    modifies visited
    ensures IsCluster(points, cluster, radius, minPoints, dist) && cluster[0] == index
    ensures Covered(visited[..], cluster) && VisitedGrew(old(visited[..]), visited[..], cluster)
    ensures Distinct(expansions) && |expansions| <= |points|
    ensures forall x :: x in expansions ==>
              x in cluster && !old(visited[x]) && |Neighbors(points, x, radius, dist)| >= minPoints
    ensures forall w :: 0 <= w < |neighbors| ==> neighbors[w] in cluster
    ensures forall x :: x in cluster && x < visited.Length && !old(visited[x]) &&
                        |Neighbors(points, x, radius, dist)| >= minPoints
                        ==> x in expansions
    ensures forall x :: x in expansions ==> forall y :: y in Neighbors(points, x, radius, dist) ==> y in cluster
  {
    cluster := [index];
    expansions := [];
    var worklist := neighbors;
    ghost var parent: seq<nat> := Repeat(0, |neighbors|);
    ghost var initial := visited[..];
    var i := 0;
    while i < |worklist|
      invariant ExpandState(points, index, radius, minPoints, dist, initial, neighbors, visited[..], cluster,
                            worklist, parent, i, expansions)
      decreases |points| - |expansions|, |worklist| - i
    {
      cluster, worklist, parent, expansions :=
        ScanNext(points, index, neighbors, visited, radius, minPoints, dist, initial, cluster, worklist, parent,
                 i, expansions);
      i := i + 1;
    }
    ExpandExit(points, index, radius, minPoints, dist, initial, neighbors, visited[..], cluster, worklist,
               parent, expansions);
  }

  /** The first elements (the seeds) of successive clusters strictly increase. */
  predicate SeedsIncreasing(clusters: seq<seq<nat>>)
  {
    forall a, b :: 0 <= a < b < |clusters| ==>
      |clusters[a]| > 0 && |clusters[b]| > 0 && clusters[a][0] < clusters[b][0]
  }

  predicate InSomeCluster(clusters: seq<seq<nat>>, j: nat)
  {
    exists k :: 0 <= k < |clusters| && j in clusters[k]
  }

  /** Every cluster is seeded below `i` by a point with at least `minPoints` neighbours. */
  ghost predicate SeededBelow(points: seq<Point>, radius: real, minPoints: int, dist: Metric,
                              clusters: seq<seq<nat>>, i: nat)
  {
    forall k :: 0 <= k < |clusters| ==>
      IsCluster(points, clusters[k], radius, minPoints, dist) && clusters[k][0] < i &&
      |Neighbors(points, clusters[k][0], radius, dist)| >= minPoints
  }

  /** Every visited point is in a cluster or has fewer than `minPoints` neighbours. */
  ghost predicate Accounted(points: seq<Point>, radius: real, minPoints: int, dist: Metric,
                            visited: seq<bool>, clusters: seq<seq<nat>>)
  {
    forall j :: 0 <= j < |visited| && visited[j] ==>
      InSomeCluster(clusters, j) || |Neighbors(points, j, radius, dist)| < minPoints
  }

  /** Every member of every cluster is visited. */
  ghost predicate AllVisited(visited: seq<bool>, clusters: seq<seq<nat>>)
  {
    forall k :: 0 <= k < |clusters| ==> Covered(visited, clusters[k])
  }

  /** Every cluster holds all neighbours of its seed, so it has more than
      `minPoints` members, and no earlier cluster holds its seed. */
  ghost predicate SeedsClosed(points: seq<Point>, radius: real, minPoints: int, dist: Metric,
                              clusters: seq<seq<nat>>)
  {
    (forall k :: 0 <= k < |clusters| ==>
       |clusters[k]| > minPoints && |clusters[k]| > 0 &&
       forall y :: y in Neighbors(points, clusters[k][0], radius, dist) ==> y in clusters[k]) &&
    (forall a, b :: 0 <= a < b < |clusters| ==> |clusters[b]| > 0 && clusters[b][0] !in clusters[a])
  }

  /** `x` is in cluster `k` and in no earlier cluster. */
  predicate FirstIn(clusters: seq<seq<nat>>, k: nat, x: nat)
  {
    k < |clusters| && x in clusters[k] && forall a :: 0 <= a < k ==> x !in clusters[a]
  }

  /** Every point with at least `minPoints` neighbours has all its neighbours in
      the first cluster that holds it: a density-connected group is never split
      at one of its core points. */
  ghost predicate Closed(points: seq<Point>, radius: real, minPoints: int, dist: Metric, clusters: seq<seq<nat>>)
  {
    forall k: nat, x: nat :: FirstIn(clusters, k, x) && |Neighbors(points, x, radius, dist)| >= minPoints ==>
      forall y :: y in Neighbors(points, x, radius, dist) ==> y in clusters[k]
  }

  /** What holds of `detect_clusters`' state before point `i` is examined. */
  ghost predicate Detecting(points: seq<Point>, radius: real, minPoints: int, dist: Metric,
                            visited: seq<bool>, clusters: seq<seq<nat>>, i: nat)
  {
    |visited| == |points| && i <= |points| &&
    (forall j :: 0 <= j < i ==> visited[j]) &&
    SeededBelow(points, radius, minPoints, dist, clusters, i) &&
    SeedsIncreasing(clusters) &&
    Accounted(points, radius, minPoints, dist, visited, clusters) &&
    AllVisited(visited, clusters) && SeedsClosed(points, radius, minPoints, dist, clusters) &&
    Closed(points, radius, minPoints, dist, clusters)
  }

  /** Marking a point visited keeps every cluster visited. */
  lemma MarkAllVisited(visited: seq<bool>, clusters: seq<seq<nat>>, i: nat)
    requires AllVisited(visited, clusters) && i < |visited|
    ensures AllVisited(visited[i := true], clusters)
  {
    var marked := visited[i := true];
    forall k | 0 <= k < |clusters| ensures Covered(marked, clusters[k]) {
      assert Covered(visited, clusters[k]);
    }
  }

  /** Marking a point that is visited already or has too few neighbours keeps every visited point accounted for. */
  lemma MarkAccounted(points: seq<Point>, radius: real, minPoints: int, dist: Metric,
                      visited: seq<bool>, clusters: seq<seq<nat>>, i: nat)
    requires Accounted(points, radius, minPoints, dist, visited, clusters) && i < |visited|
    requires visited[i] || |Neighbors(points, i, radius, dist)| < minPoints
    ensures Accounted(points, radius, minPoints, dist, visited[i := true], clusters)
  {
  }

  /** Seeds below `i` are also below `i + 1`. */
  lemma SeededBelowNext(points: seq<Point>, radius: real, minPoints: int, dist: Metric,
                        clusters: seq<seq<nat>>, i: nat)
    requires SeededBelow(points, radius, minPoints, dist, clusters, i)
    ensures SeededBelow(points, radius, minPoints, dist, clusters, i + 1)
  {
  }

  /** A point found visited, or marked visited as noise, leaves `Detecting` in place for the next index. */
  lemma SkipOrNoise(points: seq<Point>, radius: real, minPoints: int, dist: Metric,
                    visited: seq<bool>, clusters: seq<seq<nat>>, i: nat)
    requires Detecting(points, radius, minPoints, dist, visited, clusters, i) && i < |points|
    requires visited[i] || |Neighbors(points, i, radius, dist)| < minPoints
    ensures Detecting(points, radius, minPoints, dist, visited[i := true], clusters, i + 1)
  {
    var marked := visited[i := true];
    MarkAllVisited(visited, clusters, i);
    MarkAccounted(points, radius, minPoints, dist, visited, clusters, i);
    SeededBelowNext(points, radius, minPoints, dist, clusters, i);
    assert forall j :: 0 <= j < i + 1 ==> marked[j];
  }

  /** Appending a cluster seeded at `i` keeps the seeds below `i + 1` and increasing. */
  lemma SeedNewCluster(points: seq<Point>, radius: real, minPoints: int, dist: Metric,
                       clusters: seq<seq<nat>>, cluster: seq<nat>, i: nat)
    requires SeededBelow(points, radius, minPoints, dist, clusters, i) && SeedsIncreasing(clusters)
    requires |Neighbors(points, i, radius, dist)| >= minPoints
    requires IsCluster(points, cluster, radius, minPoints, dist) && cluster[0] == i
    ensures SeededBelow(points, radius, minPoints, dist, clusters + [cluster], i + 1)
    ensures SeedsIncreasing(clusters + [cluster])
  {
  }

  /** The points the new cluster marked visited are accounted for by it. */
  lemma AccountNewCluster(points: seq<Point>, radius: real, minPoints: int, dist: Metric,
                          visited: seq<bool>, after: seq<bool>, clusters: seq<seq<nat>>, cluster: seq<nat>, i: nat)
    requires Accounted(points, radius, minPoints, dist, visited, clusters) && i < |visited|
    requires |cluster| > 0 && cluster[0] == i
    requires VisitedGrew(visited[i := true], after, cluster)
    ensures Accounted(points, radius, minPoints, dist, after, clusters + [cluster])
  {
    var clusters' := clusters + [cluster];
    forall j | 0 <= j < |after| && after[j]
      ensures InSomeCluster(clusters', j) || |Neighbors(points, j, radius, dist)| < minPoints
    {
      if j == i {
        assert clusters'[|clusters|][0] == i;
      } else if visited[j] {
        if InSomeCluster(clusters, j) {
          var k :| 0 <= k < |clusters| && j in clusters[k];
          assert clusters'[k] == clusters[k];
        }
      } else {
        assert j in clusters'[|clusters|];
      }
    }
  }

  /** A cluster that holds all neighbours of its core seed has more than `minPoints` members. */
  lemma ClusterSize(points: seq<Point>, radius: real, minPoints: int, dist: Metric, cluster: seq<nat>)
    requires |cluster| > 0 && Distinct(cluster)
    requires |Neighbors(points, cluster[0], radius, dist)| >= minPoints
    requires forall y :: y in Neighbors(points, cluster[0], radius, dist) ==> y in cluster
    ensures |cluster| > minPoints
  {
    var seed := cluster[0];
    var nb := Neighbors(points, seed, radius, dist);
    NeighborsUpToExact(points, seed, radius, dist, |points|);
    forall w | 0 <= w < |nb| ensures nb[w] != seed {
      assert nb[w] < |points| && nb[w] in nb;
    }
    var withSeed := nb + [seed];
    forall p, q | 0 <= p < q < |withSeed| ensures withSeed[p] != withSeed[q] {
      if q == |nb| {
        assert withSeed[p] in nb;
      }
    }
    assert forall x :: x in withSeed ==> x in cluster;
    DistinctSubsetLength(withSeed, cluster);
  }

  /** The new cluster, seeded at an unvisited point and holding all its neighbours,
      keeps every cluster visited and every seed fresh. */
  lemma CloseNewCluster(points: seq<Point>, radius: real, minPoints: int, dist: Metric,
                        visited: seq<bool>, after: seq<bool>, clusters: seq<seq<nat>>, cluster: seq<nat>, i: nat)
    requires AllVisited(visited, clusters) && SeedsClosed(points, radius, minPoints, dist, clusters)
    requires i < |visited| && !visited[i]
    requires VisitedGrew(visited[i := true], after, cluster) && Covered(after, cluster)
    requires |cluster| > 0 && cluster[0] == i && Distinct(cluster)
    requires |Neighbors(points, i, radius, dist)| >= minPoints
    requires forall w :: 0 <= w < |Neighbors(points, i, radius, dist)| ==> Neighbors(points, i, radius, dist)[w] in cluster
    ensures AllVisited(after, clusters + [cluster])
    ensures SeedsClosed(points, radius, minPoints, dist, clusters + [cluster])
  {
    var clusters' := clusters + [cluster];
    var marked := visited[i := true];
    forall k | 0 <= k < |clusters'| ensures Covered(after, clusters'[k]) {
      if k < |clusters| {
        assert Covered(visited, clusters[k]);
        forall m | 0 <= m < |clusters[k]| ensures clusters[k][m] < |after| && after[clusters[k][m]] {
          assert marked[clusters[k][m]];
        }
      }
    }
    forall y | y in Neighbors(points, i, radius, dist) ensures y in cluster {
      var w :| 0 <= w < |Neighbors(points, i, radius, dist)| && Neighbors(points, i, radius, dist)[w] == y;
    }
    ClusterSize(points, radius, minPoints, dist, cluster);
    forall a | 0 <= a < |clusters| ensures i !in clusters[a] {
      assert Covered(visited, clusters[a]);
      forall m | 0 <= m < |clusters[a]| ensures clusters[a][m] != i {
        assert visited[clusters[a][m]];
      }
    }
  }

  /** The new cluster stays closed: a core member first held by it is either the
      seed, whose neighbours it holds, or a point unvisited before the cluster
      grew, since a visited core point is already in an earlier cluster; such a
      point extended the worklist, so its neighbours joined the cluster too. */
  lemma CloseCluster(points: seq<Point>, radius: real, minPoints: int, dist: Metric,
                     visited: seq<bool>, clusters: seq<seq<nat>>, cluster: seq<nat>, i: nat)
    requires Closed(points, radius, minPoints, dist, clusters)
    requires Accounted(points, radius, minPoints, dist, visited, clusters)
    requires |cluster| > 0 && cluster[0] == i
    requires forall m :: 0 <= m < |cluster| ==> cluster[m] < |visited|
    requires forall y :: y in Neighbors(points, i, radius, dist) ==> y in cluster
    requires forall x :: x in cluster && x < |visited| && x != i && !visited[x] &&
                         |Neighbors(points, x, radius, dist)| >= minPoints
                         ==> forall y :: y in Neighbors(points, x, radius, dist) ==> y in cluster
    ensures Closed(points, radius, minPoints, dist, clusters + [cluster])
  {
    var clusters' := clusters + [cluster];
    forall k: nat, x: nat | FirstIn(clusters', k, x) && |Neighbors(points, x, radius, dist)| >= minPoints
      ensures forall y :: y in Neighbors(points, x, radius, dist) ==> y in clusters'[k]
    {
      if k < |clusters| {
        assert clusters'[k] == clusters[k];
        forall a | 0 <= a < k ensures x !in clusters[a] {
          assert clusters'[a] == clusters[a];
        }
        assert FirstIn(clusters, k, x);
      } else if x != i {
        forall a | 0 <= a < |clusters| ensures x !in clusters[a] {
          assert clusters'[a] == clusters[a];
        }
        assert !InSomeCluster(clusters, x);
        var m :| 0 <= m < |cluster| && cluster[m] == x;
        assert x < |visited|;
      }
    }
  }

  /** A cluster grown from the unvisited core point `i` leaves `Detecting` in place for the next index. */
  lemma AddCluster(points: seq<Point>, radius: real, minPoints: int, dist: Metric,
                   visited: seq<bool>, after: seq<bool>, clusters: seq<seq<nat>>, cluster: seq<nat>, i: nat,
                   expansions: seq<nat>)
    requires Detecting(points, radius, minPoints, dist, visited, clusters, i) && i < |points| && !visited[i]
    requires |Neighbors(points, i, radius, dist)| >= minPoints
    requires IsCluster(points, cluster, radius, minPoints, dist) && cluster[0] == i
    requires VisitedGrew(visited[i := true], after, cluster) && Covered(after, cluster)
    requires forall w :: 0 <= w < |Neighbors(points, i, radius, dist)| ==> Neighbors(points, i, radius, dist)[w] in cluster
    requires forall x :: x in cluster && x < |visited| && !visited[i := true][x] &&
                         |Neighbors(points, x, radius, dist)| >= minPoints
                         ==> x in expansions
    requires forall x :: x in expansions ==> forall y :: y in Neighbors(points, x, radius, dist) ==> y in cluster
    ensures Detecting(points, radius, minPoints, dist, after, clusters + [cluster], i + 1)
  {
    var marked := visited[i := true];
    forall x | x in cluster && x < |visited| && x != i && !visited[x] &&
               |Neighbors(points, x, radius, dist)| >= minPoints
      ensures forall y :: y in Neighbors(points, x, radius, dist) ==> y in cluster
    {
      assert !marked[x];
    }
    CloseCluster(points, radius, minPoints, dist, visited, clusters, cluster, i);
    SeedNewCluster(points, radius, minPoints, dist, clusters, cluster, i);
    CloseNewCluster(points, radius, minPoints, dist, visited, after, clusters, cluster, i);
    AccountNewCluster(points, radius, minPoints, dist, visited, after, clusters, cluster, i);
    assert forall j :: 0 <= j < i + 1 ==> marked[j];
  }

  /** One iteration of `detect_clusters`' loop: an already visited point is
      skipped; otherwise it is marked visited and becomes noise when it has fewer
      than `minPoints` neighbours, and seeds a new cluster otherwise. */
  method ExamineNext(points: seq<Point>, radius: real, minPoints: int, dist: Metric, visited: array<bool>,
                     clusters: seq<seq<nat>>, noise: seq<nat>, i: nat)
    returns (clusters': seq<seq<nat>>, noise': seq<nat>)
    requires i < |points| && visited.Length == |points|
    requires Detecting(points, radius, minPoints, dist, visited[..], clusters, i)
    modifies visited
    ensures Detecting(points, radius, minPoints, dist, visited[..], clusters', i + 1)
    ensures old(visited[i]) ==> clusters' == clusters && noise' == noise
    ensures !old(visited[i]) && |Neighbors(points, i, radius, dist)| < minPoints ==>
              clusters' == clusters && noise' == noise + [i]
    ensures !old(visited[i]) && |Neighbors(points, i, radius, dist)| >= minPoints ==>
              |clusters'| == |clusters| + 1 && clusters'[..|clusters|] == clusters && clusters'[|clusters|][0] == i &&
              noise' == noise
  {
    clusters', noise' := clusters, noise;
    ghost var atHead := visited[..];
    if visited[i] {
      SkipOrNoise(points, radius, minPoints, dist, atHead, clusters, i);
      assert atHead[i := true] == atHead;
      return;
    }
    visited[i] := true;
    var neighbors := GetNeighbors(points, i, radius, dist);
    if |neighbors| < minPoints {
      noise' := noise + [i];
      SkipOrNoise(points, radius, minPoints, dist, atHead, clusters, i);
    } else {
      ghost var marked := visited[..];
      assert marked == atHead[i := true];
      var cluster;
      ghost var expansions;
      cluster, expansions := ExpandCluster(points, i, neighbors, visited, radius, minPoints, dist);
      AddCluster(points, radius, minPoints, dist, atHead, visited[..], clusters, cluster, i, expansions);
      clusters' := clusters + [cluster];
    }
  }

  /** What the outer loop's invariant gives once every point has been examined. */
  lemma DetectedClusters(points: seq<Point>, radius: real, minPoints: int, dist: Metric,
                         visited: seq<bool>, clusters: seq<seq<nat>>)
    requires Detecting(points, radius, minPoints, dist, visited, clusters, |points|)
    ensures forall k :: 0 <= k < |clusters| ==>
              IsCluster(points, clusters[k], radius, minPoints, dist) &&
              |Neighbors(points, clusters[k][0], radius, dist)| >= minPoints
    ensures SeedsIncreasing(clusters)
    ensures forall j :: 0 <= j < |points| && |Neighbors(points, j, radius, dist)| >= minPoints ==>
              InSomeCluster(clusters, j)
    ensures forall k :: 0 <= k < |clusters| ==>
              |clusters[k]| > minPoints && |clusters[k]| > 0 &&
              forall y :: y in Neighbors(points, clusters[k][0], radius, dist) ==> y in clusters[k]
    ensures forall a, b :: 0 <= a < b < |clusters| ==> |clusters[b]| > 0 && clusters[b][0] !in clusters[a]
    ensures Closed(points, radius, minPoints, dist, clusters)
  {
  }

  /** Clusters the points: each point not yet visited, taken in index order, is
      marked visited and becomes noise when it has fewer than `minPoints`
      neighbours, and otherwise seeds a cluster that `ExpandCluster` grows. The
      clusters need not be disjoint. */
  method DetectClusters(points: seq<Point>, radius: real, minPoints: int, dist: Metric)
    returns (clusters: seq<seq<nat>>)
    ensures forall k :: 0 <= k < |clusters| ==>
              IsCluster(points, clusters[k], radius, minPoints, dist) &&
              |Neighbors(points, clusters[k][0], radius, dist)| >= minPoints
    ensures SeedsIncreasing(clusters)
    ensures forall j :: 0 <= j < |points| && |Neighbors(points, j, radius, dist)| >= minPoints ==>
              InSomeCluster(clusters, j)
    ensures forall k :: 0 <= k < |clusters| ==>
              |clusters[k]| > minPoints && |clusters[k]| > 0 &&
              forall y :: y in Neighbors(points, clusters[k][0], radius, dist) ==> y in clusters[k]
    ensures forall a, b :: 0 <= a < b < |clusters| ==> |clusters[b]| > 0 && clusters[b][0] !in clusters[a]
    ensures Closed(points, radius, minPoints, dist, clusters)
  {
    var n := |points|;
    var visited := new bool[n](_ => false);
    clusters := [];
    var noise: seq<nat> := [];
    for i := 0 to n
      invariant visited.Length == n
      invariant Detecting(points, radius, minPoints, dist, visited[..], clusters, i)
    {
      clusters, noise := ExamineNext(points, radius, minPoints, dist, visited, clusters, noise, i);
    }
    DetectedClusters(points, radius, minPoints, dist, visited[..], clusters);
  }

  // ---------------------------------------------------------------------------
  // spatial_autocorrelation: Moran's I
  // ---------------------------------------------------------------------------

  function Mean(values: seq<real>): real
    requires |values| > 0
  {
    Sum(values) / (|values| as real)
  }

  /** The inverse-distance weight `1 / (d + 0.1)`; the 0.1 keeps it finite for coincident points. */
  function InverseDistanceWeight(d: real): (w: real)
    requires d >= 0.0
    ensures w > 0.0
  {
    1.0 / (d + 0.1)
  }

  /** w_ij (v_i - mean)(v_j - mean): the contribution of the pair (i, j) to the numerator. */
  function PairTerm(points: seq<Point>, values: seq<real>, mean: real, dist: Metric, i: nat, j: nat): real
    requires |values| == |points| && i < |points| && j < |points| && NonNegative(dist)
  {
    InverseDistanceWeight(dist(points[i], points[j])) * (values[i] - mean) * (values[j] - mean)
  }

  /** Σ_{j < k, j != i} w_ij (v_i - mean)(v_j - mean): row `i` of the numerator. */
  function RowNumerator(points: seq<Point>, values: seq<real>, mean: real, dist: Metric, i: nat, k: nat): real
    requires |values| == |points| && i < |points| && k <= |points| && NonNegative(dist)
  {
    if k == 0 then 0.0
    else
      var j := k - 1;
      RowNumerator(points, values, mean, dist, i, j) +
      (if i != j then PairTerm(points, values, mean, dist, i, j) else 0.0)
  }

  /** Σ_{i < k} of the numerator rows. */
  function Numerator(points: seq<Point>, values: seq<real>, mean: real, dist: Metric, k: nat): real
    requires |values| == |points| && k <= |points| && NonNegative(dist)
  {
    if k == 0 then 0.0
    else Numerator(points, values, mean, dist, k - 1) + RowNumerator(points, values, mean, dist, k - 1, |points|)
  }

  /** Σ_{j < k, j != i} w_ij: row `i` of the weight sum. */
  function RowWeight(points: seq<Point>, dist: Metric, i: nat, k: nat): real
    requires i < |points| && k <= |points| && NonNegative(dist)
  {
    if k == 0 then 0.0
    else
      var j := k - 1;
      RowWeight(points, dist, i, j) + (if i != j then InverseDistanceWeight(dist(points[i], points[j])) else 0.0)
  }

  /** Σ_{i < k} of the weight rows. */
  function WeightSum(points: seq<Point>, dist: Metric, k: nat): real
    requires k <= |points| && NonNegative(dist)
  {
    if k == 0 then 0.0 else WeightSum(points, dist, k - 1) + RowWeight(points, dist, k - 1, |points|)
  }

  /** Σ_{i < k} (v_i - mean)²: the Moran denominator, and n times the variance the hotspot analysis uses. */
  function SquaredDeviations(values: seq<real>, mean: real, k: nat): real
    requires k <= |values|
  {
    if k == 0 then 0.0
    else SquaredDeviations(values, mean, k - 1) + (values[k - 1] - mean) * (values[k - 1] - mean)
  }

  /** The index `spatial_autocorrelation` returns: 0 for mismatched lengths, fewer
      than two points, a method other than "moran", or a zero denominator or weight
      sum; otherwise Moran's I = (n / Σw) · (numerator / denominator). */
  function Moran(points: seq<Point>, values: seq<real>, methodName: string, dist: Metric): real
    requires NonNegative(dist)
  {
    if |points| != |values| || |points| < 2 then 0.0
    else if methodName == "moran" then
      var n := |points|;
      var mean := Mean(values);
      var numerator := Numerator(points, values, mean, dist, n);
      var denominator := SquaredDeviations(values, mean, n);
      var wSum := WeightSum(points, dist, n);
      if denominator == 0.0 || wSum == 0.0 then 0.0
      else (n as real / wSum) * (numerator / denominator)
    else 0.0
  }

  /** The inner loop of `spatial_autocorrelation` for row `i`: adds, pair by pair,
      the row's numerator terms and weights to the running totals. */
  method AddRow(points: seq<Point>, values: seq<real>, mean: real, dist: Metric, i: nat,
                numerator0: real, wSum0: real)
    returns (numerator: real, wSum: real)
    requires |values| == |points| && i < |points| && NonNegative(dist)
    ensures numerator == numerator0 + RowNumerator(points, values, mean, dist, i, |points|)
    ensures wSum == wSum0 + RowWeight(points, dist, i, |points|)
  {
    numerator, wSum := numerator0, wSum0;
    for j := 0 to |points|
      invariant numerator == numerator0 + RowNumerator(points, values, mean, dist, i, j)
      invariant wSum == wSum0 + RowWeight(points, dist, i, j)
    {
      if i != j {
        var d := dist(points[i], points[j]);
        var wij := 1.0 / (d + 0.1);
        assert wij == InverseDistanceWeight(d);
        assert wij * (values[i] - mean) * (values[j] - mean) == PairTerm(points, values, mean, dist, i, j);
        numerator := numerator + wij * (values[i] - mean) * (values[j] - mean);
        wSum := wSum + wij;
      }
    }
  }

  /** The double loop of `spatial_autocorrelation`: accumulates the numerator and
      the weight sum over all ordered pairs of distinct points, row by row. */
  method PairSums(points: seq<Point>, values: seq<real>, mean: real, dist: Metric)
    returns (numerator: real, wSum: real)
    requires |values| == |points| && NonNegative(dist)
    ensures numerator == Numerator(points, values, mean, dist, |points|)
    ensures wSum == WeightSum(points, dist, |points|)
  {
    var n := |points|;
    numerator := 0.0;
    wSum := 0.0;
    for i := 0 to n
      invariant numerator == Numerator(points, values, mean, dist, i)
      invariant wSum == WeightSum(points, dist, i)
    {
      numerator, wSum := AddRow(points, values, mean, dist, i, numerator, wSum);
    }
  }

  /** The second loop of `spatial_autocorrelation`: Σ (v_i - mean)². */
  method DeviationSum(values: seq<real>, mean: real) returns (denominator: real)
    ensures denominator == SquaredDeviations(values, mean, |values|)
  {
    denominator := 0.0;
    for i := 0 to |values|
      invariant denominator == SquaredDeviations(values, mean, i)
    {
      denominator := denominator + (values[i] - mean) * (values[i] - mean);
    }
  }

  method SpatialAutocorrelation(points: seq<Point>, values: seq<real>, methodName: string, dist: Metric)
    returns (index: real)
    requires NonNegative(dist)
    ensures index == Moran(points, values, methodName, dist)
    ensures |points| != |values| || |points| < 2 || methodName != "moran" ==> index == 0.0
  {
    if |points| != |values| || |points| < 2 {
      return 0.0;
    }
    var n := |points|;
    var meanValue := Sum(values) / (n as real);
    if methodName == "moran" {
      var numerator, wSum := PairSums(points, values, meanValue, dist);
      var denominator := DeviationSum(values, meanValue);
      if denominator == 0.0 || wSum == 0.0 {
        return 0.0;
      }
      return (n as real / wSum) * (numerator / denominator);
    }
    return 0.0;
  }

  lemma {:induction false} RowWeightBounds(points: seq<Point>, dist: Metric, i: nat, k: nat)
    requires i < |points| && k <= |points| && NonNegative(dist)
    ensures RowWeight(points, dist, i, k) >= 0.0
    ensures k >= 2 || (k == 1 && i != 0) ==> RowWeight(points, dist, i, k) > 0.0
  {
    if k > 0 {
      RowWeightBounds(points, dist, i, k - 1);
      if k - 1 != i {
        assert InverseDistanceWeight(dist(points[i], points[k - 1])) > 0.0;
      }
    }
  }

  lemma {:induction false} WeightSumNonNegative(points: seq<Point>, dist: Metric, k: nat)
    requires k <= |points| && NonNegative(dist)
    ensures WeightSum(points, dist, k) >= 0.0
  {
    if k > 0 {
      WeightSumNonNegative(points, dist, k - 1);
      RowWeightBounds(points, dist, k - 1, |points|);
    }
  }

  /** With at least two points every weight is positive, so the zero-weight-sum
      guard of `spatial_autocorrelation` never fires. */
  lemma WeightSumPositive(points: seq<Point>, dist: Metric)
    requires |points| >= 2 && NonNegative(dist)
    ensures WeightSum(points, dist, |points|) > 0.0
  {
    var n := |points|;
    WeightSumAtLeastRow(points, dist, n, 0);
    RowWeightBounds(points, dist, 0, n);
    assert 1 < n && 1 != 0;
  }

  lemma {:induction false} WeightSumAtLeastRow(points: seq<Point>, dist: Metric, k: nat, i: nat)
    requires i < k <= |points| && NonNegative(dist)
    ensures WeightSum(points, dist, k) >= RowWeight(points, dist, i, |points|)
  {
    if i < k - 1 {
      WeightSumAtLeastRow(points, dist, k - 1, i);
      RowWeightBounds(points, dist, k - 1, |points|);
    } else {
      WeightSumNonNegative(points, dist, k - 1);
    }
  }

  lemma {:induction false} SquaredDeviationsNonNegative(values: seq<real>, mean: real, k: nat)
    requires k <= |values|
    ensures SquaredDeviations(values, mean, k) >= 0.0
    ensures forall i :: 0 <= i < k ==> (values[i] - mean) * (values[i] - mean) <= SquaredDeviations(values, mean, k)
  {
    if k > 0 {
      SquaredDeviationsNonNegative(values, mean, k - 1);
      var d := values[k - 1] - mean;
      assert d * d >= 0.0;
    }
  }

  lemma {:induction false} SquaredDeviationsZeroWhenEqual(values: seq<real>, mean: real, k: nat)
    requires k <= |values| && forall i :: 0 <= i < k ==> values[i] == mean
    ensures SquaredDeviations(values, mean, k) == 0.0
  {
    if k > 0 {
      SquaredDeviationsZeroWhenEqual(values, mean, k - 1);
    }
  }

  /** A product of two numbers of the same strict sign that is bounded by `s` makes `s` positive. */
  lemma ProductBound(a: real, b: real, s: real)
    requires (a > 0.0 && b > 0.0) || (a < 0.0 && b < 0.0)
    requires a * b <= s
    ensures s > 0.0
  {
  }

  /** The squared deviations vanish exactly when every value equals the mean:
      the zero-denominator guard fires exactly for constant values. */
  lemma ZeroDeviationsIffConstant(values: seq<real>, mean: real)
    ensures SquaredDeviations(values, mean, |values|) == 0.0 <==> forall i :: 0 <= i < |values| ==> values[i] == mean
  {
    var n := |values|;
    var total := SquaredDeviations(values, mean, n);
    SquaredDeviationsNonNegative(values, mean, n);
    forall i | 0 <= i < n && values[i] != mean
      ensures total > 0.0
    {
      var d := values[i] - mean;
      assert d * d <= total;
      ProductBound(d, d, total);
    }
    if forall i :: 0 <= i < n ==> values[i] == mean {
      SquaredDeviationsZeroWhenEqual(values, mean, n);
    }
  }

  lemma {:induction false} SumOfConstant(values: seq<real>, c: real)
    requires forall i :: 0 <= i < |values| ==> values[i] == c
    ensures Sum(values) == (|values| as real) * c
  {
    if values != [] {
      SumOfConstant(values[..|values| - 1], c);
    }
  }

  lemma MeanOfConstant(values: seq<real>, c: real)
    requires |values| > 0 && forall i :: 0 <= i < |values| ==> values[i] == c
    ensures Mean(values) == c
  {
    SumOfConstant(values, c);
  }

  /** Values that are all equal show no spatial autocorrelation. */
  lemma ConstantValuesHaveZeroMoran(points: seq<Point>, values: seq<real>, methodName: string, dist: Metric, c: real)
    requires NonNegative(dist) && forall i :: 0 <= i < |values| ==> values[i] == c
    ensures Moran(points, values, methodName, dist) == 0.0
  {
    if |values| > 0 {
      MeanOfConstant(values, c);
      SquaredDeviationsZeroWhenEqual(values, c, |values|);
    }
  }

  // ---------------------------------------------------------------------------
  // hotspot_analysis
  // ---------------------------------------------------------------------------

  /** 95% two-sided significance. */
  const SignificanceZ: real := 1.96
  /** 99% two-sided significance. */
  const HighConfidenceZ: real := 2.58

  datatype SpotKind = Hot | Cold
  datatype Confidence = High | Medium

  /** One entry of the hotspot report. */
  datatype Hotspot = Hotspot(index: nat, coordinates: Point, value: real, localMean: real,
                             zScore: real, kind: SpotKind, confidence: Confidence)

  /** Σ values[j] over j < k within `radius` of point `i` (point `i` itself included). */
  function LocalSum(points: seq<Point>, values: seq<real>, radius: real, dist: Metric, i: nat, k: nat): real
    requires |values| == |points| && i < |points| && k <= |points|
  {
    if k == 0 then 0.0
    else LocalSum(points, values, radius, dist, i, k - 1) +
         (if Near(points, i, k - 1, radius, dist) then values[k - 1] else 0.0)
  }

  /** The number of j < k within `radius` of point `i` (point `i` itself included). */
  function LocalCount(points: seq<Point>, radius: real, dist: Metric, i: nat, k: nat): nat
    requires i < |points| && k <= |points|
  {
    if k == 0 then 0
    else LocalCount(points, radius, dist, i, k - 1) + (if Near(points, i, k - 1, radius, dist) then 1 else 0)
  }

  /** The z-score of point `i`'s local mean, when it has a neighbourhood at all. */
  function LocalZ(points: seq<Point>, values: seq<real>, radius: real, dist: Metric,
                  mean: real, std: real, i: nat): Option<(real, real)>
    requires |values| == |points| && i < |points| && std != 0.0
  {
    var count := LocalCount(points, radius, dist, i, |points|);
    if count > 0 then
      var localMean := LocalSum(points, values, radius, dist, i, |points|) / (count as real);
      Some((localMean, (localMean - mean) / std))
    else None
  }

  /** Point `i` is reported: it has a neighbourhood and its |z| exceeds 1.96. */
  predicate Significant(points: seq<Point>, values: seq<real>, radius: real, dist: Metric,
                        mean: real, std: real, i: nat)
    requires |values| == |points| && i < |points| && std != 0.0
  {
    var z := LocalZ(points, values, radius, dist, mean, std, i);
    z.Some? && Abs(z.value.1) > SignificanceZ
  }

  /** The entries for points below `k`, in index order. */
  function HotspotsUpTo(points: seq<Point>, values: seq<real>, radius: real, dist: Metric,
                        mean: real, std: real, k: nat): seq<Hotspot>
    requires |values| == |points| && k <= |points| && std != 0.0
  {
    if k == 0 then []
    else
      var i := k - 1;
      var z := LocalZ(points, values, radius, dist, mean, std, i);
      HotspotsUpTo(points, values, radius, dist, mean, std, i) +
      (if z.Some? && Abs(z.value.1) > SignificanceZ then
         [Hotspot(i, points[i], values[i], z.value.0, z.value.1,
                  if z.value.1 > 0.0 then Hot else Cold,
                  if Abs(z.value.1) > HighConfidenceZ then High else Medium)]
       else [])
  }

  /** What `hotspot_analysis` returns: nothing for mismatched or empty input or a
      zero standard deviation (`sqrt` stands for `math.sqrt`). */
  function Hotspots(points: seq<Point>, values: seq<real>, radius: real, dist: Metric, sqrt: real -> real): seq<Hotspot>
  {
    if |points| != |values| || |points| == 0 then []
    else
      var n := |points|;
      var mean := Mean(values);
      var std := sqrt(SquaredDeviations(values, mean, n) / (n as real));
      if std == 0.0 then [] else HotspotsUpTo(points, values, radius, dist, mean, std, n)
  }

  method HotspotAnalysis(points: seq<Point>, values: seq<real>, radius: real, dist: Metric, sqrt: real -> real)
    returns (hotspots: seq<Hotspot>)
    ensures hotspots == Hotspots(points, values, radius, dist, sqrt)
    ensures |points| != |values| || |points| == 0 ==> hotspots == []
  {
    if |points| != |values| || |points| == 0 {
      return [];
    }
    var n := |points|;
    var meanValue := Sum(values) / (n as real);
    var stdValue := sqrt(SquaredDeviations(values, meanValue, n) / (n as real));
    if stdValue == 0.0 {
      return [];
    }
    hotspots := [];
    for i := 0 to n
      invariant hotspots == HotspotsUpTo(points, values, radius, dist, meanValue, stdValue, i)
    {
      var localSum := 0.0;
      var localCount := 0;
      for j := 0 to n
        invariant localSum == LocalSum(points, values, radius, dist, i, j)
        invariant localCount == LocalCount(points, radius, dist, i, j)
      {
        var d := dist(points[i], points[j]);
        if d <= radius {
          localSum := localSum + values[j];
          localCount := localCount + 1;
        }
      }
      if localCount > 0 {
        var localMean := localSum / (localCount as real);
        var zScore := (localMean - meanValue) / stdValue;
        if Abs(zScore) > SignificanceZ {
          var kind := if zScore > 0.0 then Hot else Cold;
          var confidence := if Abs(zScore) > HighConfidenceZ then High else Medium;
          hotspots := hotspots + [Hotspot(i, points[i], values[i], localMean, zScore, kind, confidence)];
        }
      }
    }
  }

  /** Entry `e` describes a significant point below `k`: its own coordinates and
      value, its local mean and z-score, "hot" exactly for a positive z-score and
      "high" confidence exactly beyond 2.58. */
  predicate ReportedEntry(points: seq<Point>, values: seq<real>, radius: real, dist: Metric,
                          mean: real, std: real, k: nat, e: Hotspot)
    requires |values| == |points| && k <= |points| && std != 0.0
  {
    e.index < k && e.coordinates == points[e.index] && e.value == values[e.index] &&
    LocalZ(points, values, radius, dist, mean, std, e.index) == Some((e.localMean, e.zScore)) &&
    Abs(e.zScore) > SignificanceZ &&
    (e.kind == Hot <==> e.zScore > 0.0) &&
    (e.confidence == High <==> Abs(e.zScore) > HighConfidenceZ)
  }

  /** Every reported entry describes a significant point, classified by the sign
      and size of its z-score. */
  lemma {:induction false} HotspotEntries(points: seq<Point>, values: seq<real>, radius: real, dist: Metric,
                                          mean: real, std: real, k: nat)
    requires |values| == |points| && k <= |points| && std != 0.0
    ensures forall e :: e in HotspotsUpTo(points, values, radius, dist, mean, std, k) ==>
              ReportedEntry(points, values, radius, dist, mean, std, k, e)
  {
    if k > 0 {
      HotspotEntries(points, values, radius, dist, mean, std, k - 1);
    }
  }

  /** The entries come in strictly increasing index order. */
  lemma {:induction false} HotspotsIncreasing(points: seq<Point>, values: seq<real>, radius: real, dist: Metric,
                                              mean: real, std: real, k: nat)
    requires |values| == |points| && k <= |points| && std != 0.0
    ensures var r := HotspotsUpTo(points, values, radius, dist, mean, std, k);
            forall a, b :: 0 <= a < b < |r| ==> r[a].index < r[b].index
  {
    if k > 0 {
      HotspotsIncreasing(points, values, radius, dist, mean, std, k - 1);
      HotspotEntries(points, values, radius, dist, mean, std, k - 1);
      var prev := HotspotsUpTo(points, values, radius, dist, mean, std, k - 1);
      var r := HotspotsUpTo(points, values, radius, dist, mean, std, k);
      assert var r0 := HotspotsUpTo(points, values, radius, dist, mean, std, k - 1);
             forall a, b :: 0 <= a < b < |r0| ==> r0[a].index < r0[b].index;
      assert forall e :: e in r[|prev|..] ==> e.index == k - 1;
      forall a, b | 0 <= a < b < |r|
        ensures r[a].index < r[b].index
      {
        assert r[a] == prev[a] && prev[a] in prev;
        if b >= |prev| {
          assert r[b] in r[|prev|..];
        }
      }
    }
  }

  /** A point is reported exactly when it is significant. */
  lemma {:induction false} HotspotsReportSignificant(points: seq<Point>, values: seq<real>, radius: real,
                                                     dist: Metric, mean: real, std: real, k: nat)
    requires |values| == |points| && k <= |points| && std != 0.0
    ensures var r := HotspotsUpTo(points, values, radius, dist, mean, std, k);
            forall i :: 0 <= i < k ==>
              ((exists e :: e in r && e.index == i) <==> Significant(points, values, radius, dist, mean, std, i))
  {
    if k > 0 {
      HotspotsReportSignificant(points, values, radius, dist, mean, std, k - 1);
      HotspotEntries(points, values, radius, dist, mean, std, k - 1);
    }
  }
}

=== FILE: common.dfy ===
/** Values shared by the geocomputing modules and the scenario simulator. */
module Common {

  /** A coordinate pair as the Python code passes it around: a `(lat, lon)` tuple. */
  datatype Point = Point(lat: real, lon: real)

  /** A distance between two points, in kilometres. Everywhere the code calls
      `calculate_distance` with its default method this stands for the
      haversine great-circle distance, which is not modelled. */
  type Metric = (Point, Point) -> real

  /** The haversine distance is never negative; the model asks this of every metric
      whose values it divides by or compares against a threshold. */
  ghost predicate NonNegative(dist: Metric) {
    forall p, q :: dist(p, q) >= 0.0
  }

  /** A dynamically typed value of the kind stored in the Python dicts
      (GeoJSON-like features, the simulator's open input dicts). Lists and
      tuples are both `List`; ints and floats are both `Num`. */
  datatype Value =
    | Null
    | Bool(b: bool)
    | Num(x: real)
    | Str(s: string)
    | List(items: seq<Value>)
    | Dict(fields: map<string, Value>)

  /** A Python dict with string keys. */
  type Record = map<string, Value>

  datatype Option<+T> = None | Some(value: T)

  /** The outcome of a Python function that may raise. */
  datatype Result<+T, +E> = Ok(value: T) | Err(error: E)

  function Abs(x: real): (r: real)
    ensures r >= 0.0 && (r == x || r == -x)
  {
    if x < 0.0 then -x else x
  }

  /** Left-to-right sum of a sequence, as Python's `sum` or an accumulating loop computes it. */
  function Sum(s: seq<real>): real
  {
    if s == [] then 0.0 else Sum(s[..|s| - 1]) + s[|s| - 1]
  }

  lemma {:induction false} SumConcat(a: seq<real>, b: seq<real>)
    ensures Sum(a + b) == Sum(a) + Sum(b)
  {
    if b == [] {
      assert a + b == a;
    } else {
      assert (a + b)[..|a + b| - 1] == a + b[..|b| - 1];
      SumConcat(a, b[..|b| - 1]);
    }
  }

  /** Appending one more element adds it to the sum: the step of every accumulating loop. */
  lemma SumSnoc(s: seq<real>, k: nat)
    requires k < |s|
    ensures Sum(s[..k + 1]) == Sum(s[..k]) + s[k]
  {
    assert s[..k + 1][..k] == s[..k];
  }

  /** The distinct elements of a sequence: the keys a dict comprehension over it ends up with. */
  function Elements<T>(s: seq<T>): set<T>
  {
    set x | x in s
  }

  /** No element occurs twice. */
  predicate Distinct<T(==)>(s: seq<T>)
  {
    forall i, j :: 0 <= i < j < |s| ==> s[i] != s[j]
  }

  /** A sequence has at least as many entries as distinct elements. */
  lemma {:induction false} ElementsBound<T>(s: seq<T>)
    ensures |Elements(s)| <= |s|
  {
    if s != [] {
      var init := s[..|s| - 1];
      ElementsBound(init);
      assert Elements(s) == Elements(init) + {s[|s| - 1]} by {
        assert forall x :: x in s <==> x in init || x == s[|s| - 1];
      }
    }
  }

  /** Without repeated entries, there is one distinct element per entry. */
  lemma {:induction false} DistinctCardinality<T>(s: seq<T>)
    requires Distinct(s)
    ensures |Elements(s)| == |s|
  {
    if s != [] {
      var init := s[..|s| - 1];
      var last := s[|s| - 1];
      assert Distinct(init);
      DistinctCardinality(init);
      assert Elements(s) == Elements(init) + {last} by {
        assert forall x :: x in s <==> x in init || x == last;
      }
      assert last !in Elements(init) by {
        forall i | 0 <= i < |init| ensures init[i] != last {
          assert init[i] == s[i];
        }
      }
    }
  }

  /** A duplicate-free sequence whose elements all occur in a duplicate-free `b` is no longer than `b`. */
  lemma DistinctSubsetLength<T>(a: seq<T>, b: seq<T>)
    requires Distinct(a) && Distinct(b) && forall x :: x in a ==> x in b
    ensures |a| <= |b|
  {
    DistinctCardinality(a);
    DistinctCardinality(b);
    assert Elements(a) <= Elements(b);
    SubsetCardinality(Elements(a), Elements(b));
  }

  lemma SubsetCardinality<T>(a: set<T>, b: set<T>)
    requires a <= b
    ensures |a| <= |b|
  {
    assert b == a + (b - a);
  }
}

=== FILE: spatial_ops.dfy ===
/** Basic geospatial operations: coordinate transformation, distance dispatch,
    polygon area and layer overlay (geocomputing/spatial_ops.py). */
module SpatialOps {
  import opened Common

  /** One degree of latitude or longitude taken as 111 km. */
  const DegreesToKm: real := 111.0
  /** Web Mercator is defined only for latitudes within this bound. */
  const WebMercatorMaxLat: real := 85.06
  /** Half the circumference of the Web Mercator world, in metres. */
  const MercatorHalfWorld: real := 20037508.34
  /** Two features closer than this many kilometres intersect. */
  const IntersectThresholdKm: real := 1.0

  const Wgs84: string := "EPSG:4326"
  const WebMercator: string := "EPSG:3857"

  /** The `ValueError`s the module raises. */
  datatype GeoError = LatitudeOutOfRange(lat: real) | UnknownMethod(name: string)

  // ---------------------------------------------------------------------------
  // transform_coordinates and calculate_distance
  // ---------------------------------------------------------------------------

  /** Transforms `(lat, lon)` from `fromCrs` to `toCrs` (the defaults are Wgs84 and
      WebMercator). Only the WGS84 to Web Mercator pair is transformed; every other
      pair returns `(lon, lat)` as it is. `mercatorLat` stands for
      `log(tan((90 + lat) * pi / 360)) / (pi / 180)`, the ordinate in degrees. */
  function TransformCoordinates(lat: real, lon: real, fromCrs: string, toCrs: string,
                                mercatorLat: real -> real): (r: Result<(real, real), GeoError>)
    ensures fromCrs == Wgs84 && toCrs == WebMercator ==>
      (r.Err? <==> Abs(lat) > WebMercatorMaxLat) &&
      (r.Err? ==> r.error == LatitudeOutOfRange(lat)) &&
      (r.Ok? ==> r.value.0 * 180.0 == lon * MercatorHalfWorld &&
                 r.value.1 * 180.0 == mercatorLat(lat) * MercatorHalfWorld)
    ensures !(fromCrs == Wgs84 && toCrs == WebMercator) ==> r == Ok((lon, lat))
  {
    if fromCrs == Wgs84 && toCrs == WebMercator then
      if Abs(lat) > WebMercatorMaxLat then Err(LatitudeOutOfRange(lat))
      else
        var x := lon * MercatorHalfWorld / 180.0;
        var y := mercatorLat(lat) * MercatorHalfWorld / 180.0;
        Ok((x, y))
    else
      Ok((lon, lat))
  }

  /** A longitude within [-180, 180] lands within the Web Mercator world. */
  lemma MercatorXWithinWorld(lat: real, lon: real, mercatorLat: real -> real)
    requires -180.0 <= lon <= 180.0 && Abs(lat) <= WebMercatorMaxLat
    ensures var r := TransformCoordinates(lat, lon, Wgs84, WebMercator, mercatorLat);
            r.Ok? && -MercatorHalfWorld <= r.value.0 <= MercatorHalfWorld
  {
    var r := TransformCoordinates(lat, lon, Wgs84, WebMercator, mercatorLat);
    assert r.value.0 * 180.0 == lon * MercatorHalfWorld;
  }

  /** Squared planar distance of two coordinate pairs. */
  function SquaredPlanarDistance(p: Point, q: Point): (r: real)
    ensures r >= 0.0
  {
    (q.lat - p.lat) * (q.lat - p.lat) + (q.lon - p.lon) * (q.lon - p.lon)
  }

  /** Distance between two points by `method`: "haversine" (the default, given
      as `haversine`) or "euclidean" (the planar distance, with `sqrt` standing for
      `math.sqrt`). Any other method raises. */
  function CalculateDistance(p: Point, q: Point, methodName: string,
                             haversine: Metric, sqrt: real -> real): (r: Result<real, GeoError>)
    ensures r.Err? <==> methodName != "haversine" && methodName != "euclidean"
    ensures r.Err? ==> r.error == UnknownMethod(methodName)
    ensures methodName == "haversine" ==> r == Ok(haversine(p, q))
    ensures methodName == "euclidean" ==> r == Ok(sqrt(SquaredPlanarDistance(p, q)))
  {
    if methodName == "haversine" then Ok(haversine(p, q))
    else if methodName == "euclidean" then Ok(sqrt(SquaredPlanarDistance(p, q)))
    else Err(UnknownMethod(methodName))
  }

  // ---------------------------------------------------------------------------
  // calculate_area: the shoelace formula
  // ---------------------------------------------------------------------------

  /** The cross term `x_i * y_j - x_j * y_i` of one polygon edge. */
  function Cross(p: Point, q: Point): real
  {
    p.lat * q.lon - q.lat * p.lon
  }

  /** The vertex after `c[i]` around the ring: `c[(i + 1) % n]`. */
  function Next(c: seq<Point>, i: nat): Point
    requires i < |c|
  {
    if i + 1 < |c| then c[i + 1] else c[0]
  }

  /** The cross term of every edge `(c[i], c[(i + 1) % n])`, the last edge closing the ring. */
  function Edges(c: seq<Point>): (e: seq<real>)
    ensures |e| == |c|
  {
    seq(|c|, i requires 0 <= i < |c| => Cross(c[i], Next(c, i)))
  }

  /** The area in km² the code computes: 0 below three vertices, otherwise
      |Σ cross terms| / 2, scaled by 111² km² per square degree. */
  function PolygonArea(c: seq<Point>): (a: real)
    ensures a >= 0.0
    ensures |c| < 3 ==> a == 0.0
  {
    if |c| < 3 then 0.0 else Abs(Sum(Edges(c))) / 2.0 * (DegreesToKm * DegreesToKm)
  }

  method CalculateArea(coordinates: seq<Point>) returns (areaKm2: real)
    ensures areaKm2 == PolygonArea(coordinates)
    ensures areaKm2 >= 0.0
    ensures |coordinates| < 3 ==> areaKm2 == 0.0
  {
    if |coordinates| < 3 {
      return 0.0;
    }
    var area := 0.0;
    var n := |coordinates|;
    ghost var e := Edges(coordinates);
    for i := 0 to n
      invariant area == Sum(e[..i])
    {
      var j := (i + 1) % n;
      EdgeStep(coordinates, i);
      ghost var before := area;
      area := area + coordinates[i].lat * coordinates[j].lon;
      area := area - coordinates[j].lat * coordinates[i].lon;
      assert area == before + e[i];
      SumSnoc(e, i);
    }
    assert e[..n] == e;
    area := Abs(area) / 2.0;
    areaKm2 := area * (DegreesToKm * DegreesToKm);
  }

  /** The loop's successor index `(i + 1) % n` picks the vertex `Edges` pairs with `c[i]`. */
  lemma EdgeStep(c: seq<Point>, i: nat)
    requires i < |c|
    ensures var j := (i + 1) % |c|; 0 <= j < |c| && Edges(c)[i] == Cross(c[i], c[j])
  {
    var n := |c|;
    if i + 1 == n { assert (i + 1) % n == 0; } else { assert (i + 1) % n == i + 1; }
  }

  /** The vertex list started one vertex later. */
  function Rotate(c: seq<Point>): seq<Point>
    requires |c| > 0
  {
    c[1..] + [c[0]]
  }

  /** The vertex list in the opposite order. */
  function Reverse<T>(s: seq<T>): (r: seq<T>)
    ensures |r| == |s|
    ensures forall i :: 0 <= i < |s| ==> r[i] == s[|s| - 1 - i]
  {
    seq(|s|, i requires 0 <= i < |s| => s[|s| - 1 - i])
  }

  function Negate(s: seq<real>): (r: seq<real>)
    ensures |r| == |s|
    ensures forall i :: 0 <= i < |s| ==> r[i] == -s[i]
  {
    seq(|s|, i requires 0 <= i < |s| => -s[i])
  }

  lemma {:induction false} SumReverse(s: seq<real>)
    ensures Sum(Reverse(s)) == Sum(s)
  {
    if s != [] {
      SumReverse(s[1..]);
      assert Reverse(s) == Reverse(s[1..]) + [s[0]];
      SumConcat(Reverse(s[1..]), [s[0]]);
      assert s == [s[0]] + s[1..];
      SumConcat([s[0]], s[1..]);
      assert Sum([s[0]]) == s[0] by { assert [s[0]][..0] == []; }
    }
  }

  lemma {:induction false} SumNegate(s: seq<real>)
    ensures Sum(Negate(s)) == -Sum(s)
  {
    if s != [] {
      var k := |s| - 1;
      SumNegate(s[..k]);
      assert Negate(s)[..k] == Negate(s[..k]);
    }
  }

  /** Starting the ring at another vertex does not change the area. */
  lemma AreaRotationInvariant(c: seq<Point>)
    requires |c| > 0
    ensures PolygonArea(Rotate(c)) == PolygonArea(c)
  {
    var e := Edges(c);
    var n := |c|;
    assert Edges(Rotate(c)) == e[1..] + [e[0]] by {
      forall i | 0 <= i < n
        ensures Edges(Rotate(c))[i] == (e[1..] + [e[0]])[i]
      {
        if i + 1 < n {
          assert Rotate(c)[i] == c[i + 1];
        } else {
          assert Rotate(c)[i] == c[0];
        }
      }
    }
    SumConcat(e[1..], [e[0]]);
    assert e == [e[0]] + e[1..];
    SumConcat([e[0]], e[1..]);
    assert Sum([e[0]]) == e[0] by { assert [e[0]][..0] == []; }
  }

  /** Swapping the two vertices of an edge flips the sign of its cross term. */
  lemma CrossAntisymmetric(p: Point, q: Point)
    ensures Cross(q, p) == -Cross(p, q)
  {
  }

  /** Edge `i` of the reversed ring is edge `n - 2 - i` of the ring with its sign
      flipped, except the closing edge, which is the closing edge flipped. */
  lemma ReversedEdge(c: seq<Point>, i: nat)
    requires 3 <= |c| && i < |c|
    ensures var n := |c|;
            Edges(Reverse(c))[i] == if i + 1 < n then -Edges(c)[n - 2 - i] else -Edges(c)[n - 1]
  {
    var n := |c|;
    var rc := Reverse(c);
    if i + 1 < n {
      assert Edges(rc)[i] == Cross(rc[i], rc[i + 1]);
      assert Edges(c)[n - 2 - i] == Cross(c[n - 2 - i], c[n - 1 - i]);
      CrossAntisymmetric(c[n - 2 - i], c[n - 1 - i]);
    } else {
      assert Edges(rc)[i] == Cross(rc[i], rc[0]);
      CrossAntisymmetric(c[n - 1], c[0]);
    }
  }

  /** The edges of the reversed ring are the reversed edges with their signs
      flipped, the closing edge staying last. */
  lemma ReversedEdges(c: seq<Point>)
    requires |c| >= 3
    ensures var n := |c|; var e := Edges(c);
            Edges(Reverse(c)) == Negate(Reverse(e[..n - 1])) + [-e[n - 1]]
  {
    var n := |c|;
    var e := Edges(c);
    var front := Reverse(e[..n - 1]);
    var flipped := Negate(front) + [-e[n - 1]];
    assert Edges(Reverse(c)) == flipped by {
      forall i | 0 <= i < n
        ensures Edges(Reverse(c))[i] == flipped[i]
      {
        ReversedEdge(c, i);
        if i + 1 < n {
          assert flipped[i] == -front[i];
        }
      }
    }
  }

  /** Listing the vertices in the opposite orientation does not change the area:
      the signed sum only changes sign, which the absolute value removes. */
  lemma AreaReversalInvariant(c: seq<Point>)
    ensures PolygonArea(Reverse(c)) == PolygonArea(c)
  {
    if |c| >= 3 {
      var n := |c|;
      var e := Edges(c);
      var front := Reverse(e[..n - 1]);
      ReversedEdges(c);
      SumConcat(Negate(front), [-e[n - 1]]);
      SumNegate(front);
      SumReverse(e[..n - 1]);
      SumSnoc(e, n - 1);
      assert e[..n] == e;
      assert Sum([-e[n - 1]]) == -e[n - 1] by { assert [-e[n - 1]][..0] == []; }
      assert Sum(Edges(Reverse(c))) == -Sum(e);
    }
  }

  lemma SumOfFour(e: seq<real>)
    requires |e| == 4
    ensures Sum(e) == e[0] + e[1] + e[2] + e[3]
  {
    SumSnoc(e, 0);
    SumSnoc(e, 1);
    SumSnoc(e, 2);
    SumSnoc(e, 3);
    assert e[..0] == [] && e[..4] == e;
  }

  /** An axis-aligned rectangle `w` degrees by `h` degrees covers `w * h * 111²` km²,
      wherever it lies. */
  lemma RectangleArea(a: real, b: real, w: real, h: real)
    requires w >= 0.0 && h >= 0.0
    ensures PolygonArea([Point(a, b), Point(a + w, b), Point(a + w, b + h), Point(a, b + h)])
            == w * h * (DegreesToKm * DegreesToKm)
  {
    var c := [Point(a, b), Point(a + w, b), Point(a + w, b + h), Point(a, b + h)];
    var e := Edges(c);
    assert e[0] == -(w * b) by { assert e[0] == Cross(c[0], c[1]); }
    assert e[1] == (a + w) * h by { assert e[1] == Cross(c[1], c[2]); }
    assert e[2] == w * (b + h) by { assert e[2] == Cross(c[2], c[3]); }
    assert e[3] == -(a * h) by { assert e[3] == Cross(c[3], c[0]); }
    SumOfFour(e);
    assert Sum(e) == 2.0 * (w * h);
    assert w * h >= 0.0;
  }

  // ---------------------------------------------------------------------------
  // _features_intersect
  // ---------------------------------------------------------------------------

  /** The number a coordinate entry stands for: Python's `True` and `False` are
      the integers 1 and 0, so they are accepted as numbers too. */
  function NumberOf(v: Value): (r: Option<real>)
    ensures r.Some? <==> v.Num? || v.Bool?
    ensures v.Num? ==> r == Some(v.x)
    ensures v.Bool? ==> r == Some(if v.b then 1.0 else 0.0)
  {
    match v
    case Num(x) => Some(x)
    case Bool(b) => Some(if b then 1.0 else 0.0)
    case _ => None
  }

  /** The point a feature is compared by: the first two entries of
      `geometry.coordinates`, when the feature has a dict geometry whose
      coordinates are a list or tuple of at least two numbers. */
  function Anchor(f: Record): (r: Option<Point>)
    ensures r.Some? ==> "geometry" in f && f["geometry"].Dict? &&
                        "coordinates" in f["geometry"].fields &&
                        f["geometry"].fields["coordinates"].List? &&
                        |f["geometry"].fields["coordinates"].items| >= 2
  {
    if "geometry" in f && f["geometry"].Dict? && "coordinates" in f["geometry"].fields then
      var coords := f["geometry"].fields["coordinates"];
      if coords.List? && |coords.items| >= 2 then
        match (NumberOf(coords.items[0]), NumberOf(coords.items[1]))
        case (Some(x), Some(y)) => Some(Point(x, y))
        case _ => None
      else None
    else None
  }

  /** Two features intersect when both have an anchor and the anchors lie less
      than 1 km apart by the haversine distance `dist`. */
  predicate FeaturesIntersect(f1: Record, f2: Record, dist: Metric)
    ensures FeaturesIntersect(f1, f2, dist) ==> Anchor(f1).Some? && Anchor(f2).Some?
  {
    match (Anchor(f1), Anchor(f2))
    case (Some(p), Some(q)) => dist(p, q) < IntersectThresholdKm
    case _ => false
  }

  /** The geometry of `f` is a dict whose coordinates list starts with the numbers `x`, `y`. */
  predicate StartsAt(f: Record, x: real, y: real)
  {
    "geometry" in f && f["geometry"].Dict? && "coordinates" in f["geometry"].fields &&
    f["geometry"].fields["coordinates"].List? && |f["geometry"].fields["coordinates"].items| >= 2 &&
    f["geometry"].fields["coordinates"].items[0] == Num(x) &&
    f["geometry"].fields["coordinates"].items[1] == Num(y)
  }

  /** Two features whose coordinates start at `(x1, y1)` and `(x2, y2)` intersect
      exactly when those points are less than 1 km apart. */
  lemma FeaturesIntersectAt(f1: Record, f2: Record, dist: Metric, x1: real, y1: real, x2: real, y2: real)
    requires StartsAt(f1, x1, y1) && StartsAt(f2, x2, y2)
    ensures FeaturesIntersect(f1, f2, dist) <==> dist(Point(x1, y1), Point(x2, y2)) < 1.0
  {
    assert Anchor(f1) == Some(Point(x1, y1));
    assert Anchor(f2) == Some(Point(x2, y2));
  }

  /** A feature without geometry, without coordinates, or with fewer than two
      coordinates intersects nothing. */
  lemma NoCoordinatesNoIntersection(f1: Record, f2: Record, dist: Metric)
    requires !("geometry" in f1 && f1["geometry"].Dict? && "coordinates" in f1["geometry"].fields &&
               f1["geometry"].fields["coordinates"].List? &&
               |f1["geometry"].fields["coordinates"].items| >= 2)
    ensures !FeaturesIntersect(f1, f2, dist) && !FeaturesIntersect(f2, f1, dist)
  {
  }

  /** With a symmetric distance (as the haversine distance is) intersection is symmetric. */
  lemma FeaturesIntersectSymmetric(f1: Record, f2: Record, dist: Metric)
    requires forall p, q :: dist(p, q) == dist(q, p)
    ensures FeaturesIntersect(f1, f2, dist) == FeaturesIntersect(f2, f1, dist)
  {
    if Anchor(f1).Some? && Anchor(f2).Some? {
      assert dist(Anchor(f1).value, Anchor(f2).value) == dist(Anchor(f2).value, Anchor(f1).value);
    }
  }

  // ---------------------------------------------------------------------------
  // spatial_overlay
  // ---------------------------------------------------------------------------

  /** The record `{**f1, **f2, "overlay_type": "intersection"}`. */
  function Merge(f1: Record, f2: Record): Record
  {
    f1 + f2 + map["overlay_type" := Str("intersection")]
  }

  /** The merged record has the keys of both features plus "overlay_type"; the
      second feature's values win over the first's, and "overlay_type" is
      always "intersection". */
  lemma MergeContents(f1: Record, f2: Record)
    ensures var r := Merge(f1, f2);
            r.Keys == f1.Keys + f2.Keys + {"overlay_type"} &&
            r["overlay_type"] == Str("intersection") &&
            (forall k :: k in f2 && k != "overlay_type" ==> r[k] == f2[k]) &&
            (forall k :: k in f1 && k !in f2 && k != "overlay_type" ==> r[k] == f1[k])
  {
  }

  /** The merged records of `f1` with each feature of `layer2` it intersects, in layer order. */
  function Matches(f1: Record, layer2: seq<Record>, dist: Metric): seq<Record>
  {
    if layer2 == [] then []
    else
      var f2 := layer2[|layer2| - 1];
      Matches(f1, layer2[..|layer2| - 1], dist) +
      (if FeaturesIntersect(f1, f2, dist) then [Merge(f1, f2)] else [])
  }

  /** One merged record per intersecting pair, in row-major order. */
  function Intersection(layer1: seq<Record>, layer2: seq<Record>, dist: Metric): seq<Record>
  {
    if layer1 == [] then []
    else Intersection(layer1[..|layer1| - 1], layer2, dist) + Matches(layer1[|layer1| - 1], layer2, dist)
  }

  predicate IntersectsAny(f: Record, layer: seq<Record>, dist: Metric)
  {
    exists j :: 0 <= j < |layer| && FeaturesIntersect(f, layer[j], dist)
  }

  /** The features of `layer1` that intersect no feature of `layer2`, in order. */
  function Difference(layer1: seq<Record>, layer2: seq<Record>, dist: Metric): seq<Record>
  {
    if layer1 == [] then []
    else
      var f1 := layer1[|layer1| - 1];
      Difference(layer1[..|layer1| - 1], layer2, dist) +
      (if IntersectsAny(f1, layer2, dist) then [] else [f1])
  }

  /** What `spatial_overlay` returns for each operation; an unknown one yields `[]`. */
  function Overlay(layer1: seq<Record>, layer2: seq<Record>, operation: string, dist: Metric): seq<Record>
  {
    if operation == "intersection" then Intersection(layer1, layer2, dist)
    else if operation == "union" then layer1 + layer2
    else if operation == "difference" then Difference(layer1, layer2, dist)
    else []
  }

  method SpatialOverlay(layer1: seq<Record>, layer2: seq<Record>, operation: string, dist: Metric)
    returns (result: seq<Record>)
    ensures result == Overlay(layer1, layer2, operation, dist)
    ensures operation == "union" ==> result == layer1 + layer2
    ensures operation !in {"intersection", "union", "difference"} ==> result == []
  {
    result := [];
    if operation == "intersection" {
      for i := 0 to |layer1|
        invariant result == Intersection(layer1[..i], layer2, dist)
      {
        var f1 := layer1[i];
        for j := 0 to |layer2|
          invariant result == Intersection(layer1[..i], layer2, dist) + Matches(f1, layer2[..j], dist)
        {
          var f2 := layer2[j];
          assert layer2[..j + 1][..j] == layer2[..j];
          if FeaturesIntersect(f1, f2, dist) {
            result := result + [Merge(f1, f2)];
          }
        }
        assert layer2[..|layer2|] == layer2;
        assert layer1[..i + 1][..i] == layer1[..i];
      }
      assert layer1[..|layer1|] == layer1;
    } else if operation == "union" {
      result := layer1 + layer2;
    } else if operation == "difference" {
      for i := 0 to |layer1|
        invariant result == Difference(layer1[..i], layer2, dist)
      {
        var f1 := layer1[i];
        var intersects := false;
        var j := 0;
        while j < |layer2| && !intersects
          invariant 0 <= j <= |layer2|
          invariant intersects <==> exists k :: 0 <= k < j && FeaturesIntersect(f1, layer2[k], dist)
        {
          intersects := FeaturesIntersect(f1, layer2[j], dist);
          j := j + 1;
        }
        assert intersects == IntersectsAny(f1, layer2, dist);
        assert layer1[..i + 1][..i] == layer1[..i];
        if !intersects {
          result := result + [f1];
        }
      }
      assert layer1[..|layer1|] == layer1;
    }
  }

  /** Union keeps both layers whole and in order. */
  lemma UnionKeepsBothLayers(layer1: seq<Record>, layer2: seq<Record>, dist: Metric)
    ensures var r := Overlay(layer1, layer2, "union", dist);
            |r| == |layer1| + |layer2| && r[..|layer1|] == layer1 && r[|layer1|..] == layer2
  {
  }

  /** `r` is the merge of `f1` with the intersecting `j`-th feature of `layer2`. */
  predicate MergedWith(f1: Record, layer2: seq<Record>, dist: Metric, r: Record, j: int)
  {
    0 <= j < |layer2| && FeaturesIntersect(f1, layer2[j], dist) && r == Merge(f1, layer2[j])
  }

  /** `r` is the merge of the `i`-th feature of `layer1` with the intersecting `j`-th feature of `layer2`. */
  predicate MergedPair(layer1: seq<Record>, layer2: seq<Record>, dist: Metric, r: Record, i: int, j: int)
  {
    0 <= i < |layer1| && MergedWith(layer1[i], layer2, dist, r, j)
  }

  /** Every merged record of one feature comes from a feature of `layer2` it intersects. */
  lemma {:induction false} MatchesSound(f1: Record, layer2: seq<Record>, dist: Metric, r: Record)
    requires r in Matches(f1, layer2, dist)
    ensures exists j :: MergedWith(f1, layer2, dist, r, j)
  {
    var k := |layer2| - 1;
    var init := layer2[..k];
    if r in Matches(f1, init, dist) {
      MatchesSound(f1, init, dist, r);
      var j :| MergedWith(f1, init, dist, r, j);
      assert MergedWith(f1, layer2, dist, r, j);
    } else {
      assert MergedWith(f1, layer2, dist, r, k);
    }
  }

  /** Every feature of `layer2` that `f1` intersects contributes its merge. */
  lemma {:induction false} MatchesComplete(f1: Record, layer2: seq<Record>, dist: Metric, j: nat)
    requires j < |layer2| && FeaturesIntersect(f1, layer2[j], dist)
    ensures Merge(f1, layer2[j]) in Matches(f1, layer2, dist)
  {
    var k := |layer2| - 1;
    if j < k {
      var init := layer2[..k];
      assert init[j] == layer2[j];
      MatchesComplete(f1, init, dist, j);
    }
  }

  /** The merged records of one feature are exactly its merges with the features it intersects. */
  lemma MatchesMembers(f1: Record, layer2: seq<Record>, dist: Metric, r: Record)
    ensures r in Matches(f1, layer2, dist) <==> exists j :: MergedWith(f1, layer2, dist, r, j)
  {
    if r in Matches(f1, layer2, dist) {
      MatchesSound(f1, layer2, dist, r);
    }
    if j :| MergedWith(f1, layer2, dist, r, j) {
      MatchesComplete(f1, layer2, dist, j);
    }
  }

  /** Every record of the intersection merges an intersecting pair. */
  lemma {:induction false} IntersectionSound(layer1: seq<Record>, layer2: seq<Record>, dist: Metric, r: Record)
    requires r in Intersection(layer1, layer2, dist)
    ensures exists i, j :: MergedPair(layer1, layer2, dist, r, i, j)
  {
    var k := |layer1| - 1;
    var init := layer1[..k];
    if r in Intersection(init, layer2, dist) {
      IntersectionSound(init, layer2, dist, r);
      var i, j :| MergedPair(init, layer2, dist, r, i, j);
      assert MergedPair(layer1, layer2, dist, r, i, j);
    } else {
      MatchesSound(layer1[k], layer2, dist, r);
      var j :| MergedWith(layer1[k], layer2, dist, r, j);
      assert MergedPair(layer1, layer2, dist, r, k, j);
    }
  }

  /** Every intersecting pair contributes its merge to the intersection. */
  lemma {:induction false} IntersectionComplete(layer1: seq<Record>, layer2: seq<Record>, dist: Metric, i: nat, j: nat)
    requires i < |layer1| && j < |layer2| && FeaturesIntersect(layer1[i], layer2[j], dist)
    ensures Merge(layer1[i], layer2[j]) in Intersection(layer1, layer2, dist)
  {
    var k := |layer1| - 1;
    if i < k {
      var init := layer1[..k];
      assert init[i] == layer1[i];
      IntersectionComplete(init, layer2, dist, i, j);
    } else {
      MatchesComplete(layer1[k], layer2, dist, j);
    }
  }

  /** A record is in the intersection exactly when it merges some intersecting pair. */
  lemma IntersectionMembers(layer1: seq<Record>, layer2: seq<Record>, dist: Metric, r: Record)
    ensures r in Intersection(layer1, layer2, dist) <==> exists i, j :: MergedPair(layer1, layer2, dist, r, i, j)
  {
    if r in Intersection(layer1, layer2, dist) {
      IntersectionSound(layer1, layer2, dist, r);
    }
    if i, j :| MergedPair(layer1, layer2, dist, r, i, j) {
      IntersectionComplete(layer1, layer2, dist, i, j);
    }
  }

  /** Intersection is computed row by row: splitting the first layer splits the result. */
  lemma {:induction false} IntersectionRowMajor(a: seq<Record>, b: seq<Record>, layer2: seq<Record>, dist: Metric)
    ensures Intersection(a + b, layer2, dist) == Intersection(a, layer2, dist) + Intersection(b, layer2, dist)
  {
    if b == [] {
      assert a + b == a;
    } else {
      var k := |b| - 1;
      var ab := a + b;
      assert ab[..|ab| - 1] == a + b[..k] && ab[|ab| - 1] == b[k];
      var last := Matches(b[k], layer2, dist);
      IntersectionRowMajor(a, b[..k], layer2, dist);
      calc {
        Intersection(ab, layer2, dist);
        Intersection(a + b[..k], layer2, dist) + last;
        (Intersection(a, layer2, dist) + Intersection(b[..k], layer2, dist)) + last;
        Intersection(a, layer2, dist) + (Intersection(b[..k], layer2, dist) + last);
        Intersection(a, layer2, dist) + Intersection(b, layer2, dist);
      }
    }
  }

  /** `f1` yields at most one record per feature of `layer2`, and exactly one for
      each when it intersects them all. */
  lemma {:induction false} MatchesLength(f1: Record, layer2: seq<Record>, dist: Metric)
    ensures |Matches(f1, layer2, dist)| <= |layer2|
    ensures |Matches(f1, layer2, dist)| == |layer2| <==>
            forall j :: 0 <= j < |layer2| ==> FeaturesIntersect(f1, layer2[j], dist)
  {
    if layer2 != [] {
      var k := |layer2| - 1;
      var init := layer2[..k];
      MatchesLength(f1, init, dist);
      if forall j :: 0 <= j < |layer2| ==> FeaturesIntersect(f1, layer2[j], dist) {
        forall j | 0 <= j < |init| ensures FeaturesIntersect(f1, init[j], dist) {
          assert init[j] == layer2[j];
        }
      }
      if |Matches(f1, layer2, dist)| == |layer2| {
        forall j | 0 <= j < |layer2| ensures FeaturesIntersect(f1, layer2[j], dist) {
          if j < k {
            assert init[j] == layer2[j];
          }
        }
      }
    }
  }

  /** `f1` yields no record exactly when it intersects no feature of `layer2`. */
  lemma {:induction false} MatchesEmpty(f1: Record, layer2: seq<Record>, dist: Metric)
    ensures Matches(f1, layer2, dist) == [] <==> !IntersectsAny(f1, layer2, dist)
  {
    if layer2 != [] {
      var k := |layer2| - 1;
      var init := layer2[..k];
      MatchesEmpty(f1, init, dist);
      if IntersectsAny(f1, layer2, dist) {
        var j :| 0 <= j < |layer2| && FeaturesIntersect(f1, layer2[j], dist);
        if j < k {
          assert init[j] == layer2[j];
        }
      }
      if IntersectsAny(f1, init, dist) {
        var j :| 0 <= j < |init| && FeaturesIntersect(f1, init[j], dist);
        assert layer2[j] == init[j];
      }
    }
  }

  /** Adding a row of `n` to `m` rows of `n` gives `m + 1` rows. */
  lemma RowsOf(m: nat, n: nat)
    ensures (m + 1) * n == m * n + n
  {
  }

  /** The intersection holds at most one record per pair of features, and exactly
      one per pair when every pair intersects. */
  lemma {:induction false} IntersectionLength(layer1: seq<Record>, layer2: seq<Record>, dist: Metric)
    ensures |Intersection(layer1, layer2, dist)| <= |layer1| * |layer2|
    ensures (forall i, j :: 0 <= i < |layer1| && 0 <= j < |layer2| ==> FeaturesIntersect(layer1[i], layer2[j], dist))
            ==> |Intersection(layer1, layer2, dist)| == |layer1| * |layer2|
  {
    if layer1 != [] {
      var k := |layer1| - 1;
      var init := layer1[..k];
      IntersectionLength(init, layer2, dist);
      MatchesLength(layer1[k], layer2, dist);
      RowsOf(|init|, |layer2|);
      if forall i, j :: 0 <= i < |layer1| && 0 <= j < |layer2| ==> FeaturesIntersect(layer1[i], layer2[j], dist) {
        forall i, j | 0 <= i < |init| && 0 <= j < |layer2| ensures FeaturesIntersect(init[i], layer2[j], dist) {
          assert init[i] == layer1[i];
        }
      }
    }
  }

  /** Nothing intersects an empty second layer. */
  lemma {:induction false} IntersectionWithEmptyLayer(layer1: seq<Record>, dist: Metric)
    ensures Intersection(layer1, [], dist) == []
  {
    if layer1 != [] {
      IntersectionWithEmptyLayer(layer1[..|layer1| - 1], dist);
    }
  }

  /** A feature survives the difference exactly when it is in the first layer and
      intersects no feature of the second. */
  lemma {:induction false} DifferenceMembers(layer1: seq<Record>, layer2: seq<Record>, dist: Metric, f: Record)
    ensures f in Difference(layer1, layer2, dist) <==> f in layer1 && !IntersectsAny(f, layer2, dist)
  {
    if layer1 != [] {
      var k := |layer1| - 1;
      DifferenceMembers(layer1[..k], layer2, dist, f);
      assert layer1 == layer1[..k] + [layer1[k]];
    }
  }

  /** The difference filters in order: splitting the first layer splits the result. */
  lemma {:induction false} DifferencePreservesOrder(a: seq<Record>, b: seq<Record>, layer2: seq<Record>, dist: Metric)
    ensures Difference(a + b, layer2, dist) == Difference(a, layer2, dist) + Difference(b, layer2, dist)
  {
    if b == [] {
      assert a + b == a;
    } else {
      var k := |b| - 1;
      assert (a + b)[..|a + b| - 1] == a + b[..k];
      DifferencePreservesOrder(a, b[..k], layer2, dist);
    }
  }

  /** Subtracting an empty layer removes nothing. */
  lemma {:induction false} DifferenceWithEmptyLayer(layer1: seq<Record>, dist: Metric)
    ensures Difference(layer1, [], dist) == layer1
  {
    if layer1 != [] {
      var k := |layer1| - 1;
      DifferenceWithEmptyLayer(layer1[..k], dist);
      assert layer1 == layer1[..k] + [layer1[k]];
    }
  }
}

=== FILE: spatial_simulator.dfy ===
/** The scenario pipeline of `spatial_simulator.py`. Every stage builds a fixed
    record shape from its arguments; the records are datatypes here, the open
    input dicts are `Record`s and the dicts keyed by mode or overlay are maps. */
module SpatialSimulator {
  import opened Common

  /** The agent types, scenario modes and overlays the pipeline requests, in order. */
  const RequestedAgentTypes: seq<string> := ["efficiency", "equity", "biodiversity", "memory"]
  const ScenarioModes: seq<string> := ["base", "disruptive", "utopian", "hybrid"]
  const Overlays: seq<string> := ["justice", "risk", "access", "memory"]

  /** The four input layers kept under the knowledge graph's `metadata`. */
  datatype Metadata = Metadata(
    humanLayer: Record,
    spatialLayer: Record,
    temporalLayer: Record,
    ecologicalLayer: Record)

  datatype KnowledgeGraph = KnowledgeGraph(nodes: seq<Value>, edges: seq<Value>, metadata: Metadata)

  /** The `(patterns, risks, inequities)` triple of `analyze_place_dynamics`. */
  datatype Dynamics = Dynamics(patterns: seq<Value>, risks: seq<Value>, inequities: seq<Value>)

  datatype Agent = Agent(agentType: string, preferences: Record, constraints: seq<Value>)

  datatype Negotiation = Negotiation(
    negotiatedStates: seq<Value>,
    allocation: Record,
    conflicts: seq<Value>,
    compromises: seq<Value>)

  datatype ScenarioVariant = ScenarioVariant(spatialConfiguration: Record, temporalTrajectory: Record)

  /** `explanations` and `audit_trail` are Python `None` when their flag is off. */
  datatype Evaluation = Evaluation(
    scores: Record,
    tradeoffs: seq<Value>,
    explanations: Option<Record>,
    auditTrail: Option<seq<Value>>)

  datatype Visualization = Visualization(
    geometry: Record,
    textures: Record,
    overlayData: map<string, Record>,
    interactionPoints: seq<Value>,
    metadata: Record)

  /** The dict `generate_spatial_scenario` returns. */
  datatype ScenarioBundle = ScenarioBundle(
    scenarios: map<string, ScenarioVariant>,
    evaluation: Evaluation,
    visualizationData: Visualization,
    knowledgeGraph: KnowledgeGraph,
    detectedPatterns: seq<Value>,
    detectedRisks: seq<Value>,
    detectedInequities: seq<Value>)

  // ---------------------------------------------------------------------------
  // Pipeline stages
  // ---------------------------------------------------------------------------

  /** `build_place_graph`: no nodes or edges yet; the four layers are kept unchanged. */
  function BuildPlaceGraph(human: Record, spatial: Record, temporal: Record, ecological: Record): (g: KnowledgeGraph)
    ensures g.nodes == [] && g.edges == []
    ensures g.metadata.humanLayer == human && g.metadata.spatialLayer == spatial
    ensures g.metadata.temporalLayer == temporal && g.metadata.ecologicalLayer == ecological
  {
    KnowledgeGraph([], [], Metadata(human, spatial, temporal, ecological))
  }

  /** `analyze_place_dynamics`: no patterns, risks or inequities, whatever the graph. */
  function AnalyzePlaceDynamics(graph: KnowledgeGraph): (d: Dynamics)
    ensures d.patterns == [] && d.risks == [] && d.inequities == []
  {
    Dynamics([], [], [])
  }

  /** The type of each agent, in order. */
  function AgentTypes(agents: seq<Agent>): (types: seq<string>)
    ensures |types| == |agents|
    ensures forall i :: 0 <= i < |agents| ==> types[i] == agents[i].agentType
  {
    seq(|agents|, i requires 0 <= i < |agents| => agents[i].agentType)
  }

  /** `build_agents`: one agent per requested type, in the same order, with no
      preferences and no constraints. */
  function BuildAgents(agentTypes: seq<string>): (agents: seq<Agent>)
    ensures AgentTypes(agents) == agentTypes
    ensures forall i :: 0 <= i < |agents| ==> agents[i].preferences == map[] && agents[i].constraints == []
  {
    seq(|agentTypes|, i requires 0 <= i < |agentTypes| => Agent(agentTypes[i], map[], []))
  }

  /** Building agents for two lists of types is building them for each list in turn. */
  lemma BuildAgentsConcat(a: seq<string>, b: seq<string>)
    ensures BuildAgents(a + b) == BuildAgents(a) + BuildAgents(b)
  {
    var lhs := BuildAgents(a + b);
    var rhs := BuildAgents(a) + BuildAgents(b);
    assert |lhs| == |rhs|;
    forall i | 0 <= i < |lhs| ensures lhs[i] == rhs[i] {
      assert AgentTypes(lhs)[i] == (a + b)[i];
      if i < |a| {
        assert AgentTypes(BuildAgents(a))[i] == a[i];
      } else {
        assert AgentTypes(BuildAgents(b))[i - |a|] == b[i - |a|];
      }
    }
  }

  /** `simulate_negotiation`: an empty outcome record, whatever the agents,
      patterns and ecological constraints. */
  function SimulateNegotiation(agents: seq<Agent>, patterns: seq<Value>, ecologicalConstraints: Record): (n: Negotiation)
    ensures n.negotiatedStates == [] && n.allocation == map[] && n.conflicts == [] && n.compromises == []
  {
    Negotiation([], map[], [], [])
  }

  /** `generate_scenario_variants`: one empty scenario per requested mode; a mode
      listed twice gives one key, as in the Python dict comprehension. */
  function GenerateScenarioVariants(negotiatedOutcomes: Negotiation, modes: seq<string>): (scenarios: map<string, ScenarioVariant>)
    ensures scenarios.Keys == Elements(modes)
    ensures forall m :: m in scenarios ==> scenarios[m].spatialConfiguration == map[] && scenarios[m].temporalTrajectory == map[]
  {
    map m | m in modes :: ScenarioVariant(map[], map[])
  }

  /** There are never more scenarios than requested modes, and exactly one per
      mode when the modes are distinct. */
  lemma ScenarioCount(negotiatedOutcomes: Negotiation, modes: seq<string>)
    ensures |GenerateScenarioVariants(negotiatedOutcomes, modes)| <= |modes|
    ensures Distinct(modes) ==> |GenerateScenarioVariants(negotiatedOutcomes, modes)| == |modes|
  {
    ElementsBound(modes);
    if Distinct(modes) {
      DistinctCardinality(modes);
    }
  }

  /** `evaluate_tradeoffs`: no scores or trade-offs; `explanations` is an empty
      record exactly when `xai` is set and `audit_trail` an empty list exactly
      when `audit` is set, `None` otherwise. */
  function EvaluateTradeoffs(scenarios: map<string, ScenarioVariant>, governanceRules: Record, xai: bool, audit: bool): (e: Evaluation)
    ensures e.scores == map[] && e.tradeoffs == []
    ensures e.explanations.None? <==> !xai
    ensures e.auditTrail.None? <==> !audit
    ensures e.explanations.Some? ==> e.explanations.value == map[]
    ensures e.auditTrail.Some? ==> e.auditTrail.value == []
  {
    Evaluation(map[], [], if xai then Some(map[]) else None, if audit then Some([]) else None)
  }

  /** `visualize_xr`: one empty overlay slot per requested overlay, every other
      part empty; the evaluation is not consulted. */
  function VisualizeXr(evaluationData: Evaluation, overlays: seq<string>): (v: Visualization)
    ensures v.overlayData.Keys == Elements(overlays)
    ensures forall o :: o in v.overlayData ==> v.overlayData[o] == map[]
    ensures v.geometry == map[] && v.textures == map[] && v.interactionPoints == [] && v.metadata == map[]
  {
    Visualization(map[], map[], map o | o in overlays :: map[], [], map[])
  }

  /** There are never more overlay slots than requested overlays, and exactly
      one per overlay when they are distinct. */
  lemma OverlayCount(evaluationData: Evaluation, overlays: seq<string>)
    ensures |VisualizeXr(evaluationData, overlays).overlayData| <= |overlays|
    ensures Distinct(overlays) ==> |VisualizeXr(evaluationData, overlays).overlayData| == |overlays|
  {
    ElementsBound(overlays);
    if Distinct(overlays) {
      DistinctCardinality(overlays);
    }
  }

  /** `generate_spatial_scenario`: the stages run in order, with the fixed agent
      types, modes and overlays, and with explanations and audit trail requested. */
  function GenerateSpatialScenario(human: Record, spatial: Record, temporal: Record, ecological: Record, governanceRules: Record): (r: ScenarioBundle)
    ensures r.scenarios.Keys == Elements(ScenarioModes)
    ensures r.visualizationData.overlayData.Keys == Elements(Overlays)
    ensures r.evaluation.explanations == Some(map[]) && r.evaluation.auditTrail == Some([])
    ensures r.knowledgeGraph.metadata == Metadata(human, spatial, temporal, ecological)
    ensures var d := AnalyzePlaceDynamics(r.knowledgeGraph);
      r.detectedPatterns == d.patterns && r.detectedRisks == d.risks && r.detectedInequities == d.inequities
  {
    var knowledgeGraph := BuildPlaceGraph(human, spatial, temporal, ecological);
    var dynamics := AnalyzePlaceDynamics(knowledgeGraph);
    var agents := BuildAgents(RequestedAgentTypes);
    var negotiatedOutcomes := SimulateNegotiation(agents, dynamics.patterns, ecological);
    var scenarios := GenerateScenarioVariants(negotiatedOutcomes, ScenarioModes);
    var evaluation := EvaluateTradeoffs(scenarios, governanceRules, true, true);
    var visualizationData := VisualizeXr(evaluation, Overlays);
    ScenarioBundle(scenarios, evaluation, visualizationData, knowledgeGraph,
                   dynamics.patterns, dynamics.risks, dynamics.inequities)
  }

  /** The pipeline builds exactly the four agents `efficiency`, `equity`,
      `biodiversity`, `memory`, in that order. */
  lemma PipelineAgents()
    ensures |BuildAgents(RequestedAgentTypes)| == 4
    ensures AgentTypes(BuildAgents(RequestedAgentTypes)) == ["efficiency", "equity", "biodiversity", "memory"]
  {
  }

  /** The four entries of a four-element list are exactly its keys. */
  lemma ElementsOfFour<T>(s: seq<T>)
    requires |s| == 4
    ensures Elements(s) == {s[0], s[1], s[2], s[3]}
  {
    assert forall x :: x in s <==> x == s[0] || x == s[1] || x == s[2] || x == s[3];
  }

  /** The four modes are distinct names. */
  lemma ScenarioModesDistinct()
    ensures Elements(ScenarioModes) == {"base", "disruptive", "utopian", "hybrid"}
    ensures |Elements(ScenarioModes)| == 4
  {
    ElementsOfFour(ScenarioModes);
    assert Distinct(ScenarioModes);
    DistinctCardinality(ScenarioModes);
  }

  /** The four overlays are distinct names. */
  lemma OverlaysDistinct()
    ensures Elements(Overlays) == {"justice", "risk", "access", "memory"}
    ensures |Elements(Overlays)| == 4
  {
    ElementsOfFour(Overlays);
    assert Distinct(Overlays);
    DistinctCardinality(Overlays);
  }

  /** The returned bundle holds exactly the four scenarios and the four overlay
      slots, each under its own name. */
  lemma ScenarioBundleShape(human: Record, spatial: Record, temporal: Record, ecological: Record, governanceRules: Record)
    ensures var r := GenerateSpatialScenario(human, spatial, temporal, ecological, governanceRules);
      r.scenarios.Keys == {"base", "disruptive", "utopian", "hybrid"} && |r.scenarios| == 4 &&
      r.visualizationData.overlayData.Keys == {"justice", "risk", "access", "memory"} &&
      |r.visualizationData.overlayData| == 4
  {
    ScenarioModesDistinct();
    OverlaysDistinct();
  }
}
